=== FILE: README.md ===
# portal — a verified model of the decision core

`portal` is a command-line client for Apple's iOS provisioning portal. It lists
certificates, devices, app ids and provisioning profiles; adds, enables and
deletes devices; and regenerates, downloads and deletes profiles. Most of the
code is HTTP. Underneath it sits a small, deterministic decision layer, and
this project models that layer in Dafny and proves its properties:

- **Classification** (`Resources`): `profile_type`, the three-way development /
  ad hoc / app-store split, and `is_profile_expired`.
- **Signed calls** (`Envelope`): the query keys `_api` always injects, the
  result-code rule (0 and 8500 succeed), and the error message of both client
  revisions.
- **Session** (`Session`): the team id taken from the page after login.
- **Memoization** (`Cache`): the four lazily filled listing slots,
  `clear_cache`, and `list_cert_requests`.
- **Update form** (`ProfileForm`): the ordered key/value form of
  `update_provisioning_profile`, with its fallbacks.
- **Command line** (`Camel`, `Cli`, `Options`):
  - `camelcase_to_underscore` and the command table;
  - `getopt` as Python 2 implements it for short options;
  - the option dictionary and the argument-count check.
- **Selection** (`Filters`): `_filter_devices`, `_filter_profiles`, and the
  act-on-found / report-missing loop of the delete, enable and list commands.
- **Regeneration** (`Regenerate`): the skip rule, the device and certificate
  choice, and the update calls of `regenerateProfile`.
- **The older single-file script** `portal.py` (`Legacy`): `update-profiles`,
  `download-profiles` and the fallback listing. Its copy of the API uses the same
  code as the package for caching (portal.py:125-144), `list_cert_requests`
  (portal.py:146-150), the update form (portal.py:152-169) and the query keys
  (portal.py:91-95), so the same members model both copies.

## Representation

Records are datatypes with only the fields the client reads. A list element that
can be either a record or an id string (a resolver miss, or an id given by the
caller) is an `Entry<T>`, either `Obj(record)` or `Id(string)`. The API instance's
`*_cache` attributes form a `Cache` value with one `Option` per slot. Each
accessor takes the outcome of the fetch it would run, and returns the new cache,
its answer and the number of fetches. An `update_provisioning_profile` call is
recorded by its arguments, `Update(profile, devices, certificates)`; the form it
sends is `Regenerate.RenewalForm` of those arguments.

Everything the core gets from outside enters as a parameter:

- HTTP answers: an `Envelope` value and the page text;
- the request UUID;
- the user's regular-expression test (`search`);
- the lists returned by names the shown API never defines (`get_device`,
  `get_provisioning_profile`);
- `profile_type_name`, a function in `Regenerate.Context`.

Python's `x or y` on strings and lists, and `a or True` in the option
dictionary, are written out: an option given an empty argument is stored as
`Flag`.

## Model

| member | source | states |
|---|---|---|
| Resources.ProfileType | portal/api.py:249-252 | The classification is total and three-way: development exactly when the declared type is `Development` (whatever the device count); otherwise ad hoc exactly when the device count is nonzero, else app store. |
| Resources.KindNameInjective | portal/cli.py:305-309 | Helper for the `-t` comparison of `profile_type` results: the three type names are distinct, so comparing names is comparing kinds. |
| Resources.Missing | portal/cli.py:132-145 | The misses of a filtered list: no more than its entries, none exactly when every entry is a record, and every missed id is reported. |
| Resources.SingleEntry | portal/cli.py:132-145 | A single entry is reported on exactly one side: a record as a found object, a miss as its id. |
| Resources.FoundAppend | portal/cli.py:132-145 | The records of two lists joined are those of the first list followed by those of the second. With `SingleEntry`, this fixes the records of every list, in listing order. |
| Resources.MissingAppend | portal/cli.py:132-145 | The misses of two lists joined are those of the first list followed by those of the second. With `SingleEntry`, this fixes the misses of every list, in listing order. |
| Resources.OnlyEntriesReported | portal/cli.py:132-145 | Nothing is invented: every reported record and every reported miss comes from an entry of the list. |
| Resources.FoundAndMissingPartition | portal/cli.py:132-145 | Every entry is reported once, as a record or as a miss: the two counts add up to the list's length. |
| Resources.FoundObjs | portal/cli.py:177-178 | Helper for the full listing `_filter_devices` starts from: wrapping a full listing as entries and taking back its records gives the listing unchanged. |
| Envelope.SignedQuery | portal/api.py:112-117 | The query has exactly the caller's keys plus the five fixed ones. The fixed values override the caller's. Every other caller key keeps its value. |
| Envelope.Decode | portal/api.py:122-125 | `_api` returns the envelope iff the result code is 0 or 8500. Otherwise the error carries that code and the service message. |
| Text.IntToStringRoundTrip | portal/api.py:45-50 | The decimal rendering of the error code loses nothing: reading it back gives the code, negative codes included. |
| Envelope.ServiceMessage | portal/api.py:41-51 | The message always starts with the user string and the error code. It ends with `: <resultString>)` exactly when the result string differs from the user string. |
| Envelope.LegacyMessage | portal.py:35-40 | The older message starts with the user string, the code and a colon, and always ends with `: <resultString>)`. |
| Envelope.LegacyDecode | portal.py:101-104 | The older `_api` accepts the same codes. Its error carries the code and always ends with the result string. |
| Envelope.MessagesAgreeIffDiffer | portal.py:35-40 | The older message always names all three parts: user string and code, then `: <resultString>)`. It coincides with the newer one exactly when the two strings differ. |
| Envelope.RevisionsAgreeOnOutcome | portal.py:101-104 | Both revisions accept and reject the same envelopes, with the same error code. |
| Session.TeamId | portal/api.py:99-104 | No team id exactly when the page lacks `teamId=`. Otherwise the team id is the maximal run of capitals and digits after the first marker. |
| Session.Login | portal/api.py:99-104 | Login fails only when the marker is absent, with the credentials message naming the user. |
| Session.TeamIdIsRunAfterFirstMarker | portal/api.py:99-104 | The extracted id is the only string that is a maximal run after the first marker. |
| Session.EmptyTeamIdAccepted | portal/api.py:99 | A marker followed by no capital or digit yields the empty team id, and login succeeds. |
| Cache.Memoize | portal/api.py:23-30 | A filled slot is returned with no fetch. An empty slot fetches once. Only a successful fetch is stored. |
| Cache.AllCertRequests | portal/api.py:178-180 | The certificate-request slot is memoized, and the other three slots are untouched. |
| Cache.AllAppIds | portal/api.py:182-184 | The app-id slot is memoized, and the other three slots are untouched. |
| Cache.AllProfiles | portal/api.py:186-188 | The profile slot is memoized, and the other three slots are untouched. |
| Cache.AllDevices | portal/api.py:190-192 | The device slot is memoized, and the other three slots are untouched. |
| Cache.MemoizeIsStable | portal/api.py:26-29 | Once stored, a value is returned by every later call without a fetch, whatever the backend would now answer. |
| Cache.FirstCallFetchesLaterCallsDoNot | portal/api.py:178-192 | On a fresh instance, each listing's first call fetches exactly once. The second call returns the stored list with no fetch. |
| Cache.SlotsAreIndependent | portal/api.py:178-192 | Filling one slot changes no other slot and does not change another accessor's answer. |
| Cache.ClearCache | portal/api.py:194-197 | The intended `clear_cache`: every slot is emptied. |
| Cache.ClearForcesRefetch | portal/api.py:194-197 | After clearing, every accessor fetches again and returns the fresh answer. |
| Cache.DeleteWhileIterating | portal/api.py:194-197 | Walking the slots in a given order, the loop stops at the first filled slot and empties only that one. It reports the stop exactly when some slot in the order is filled; otherwise nothing changes. |
| Cache.ClearCacheAsWritten | portal/api.py:194-197 | For any iteration order that lists every slot, the loop as written raises exactly when some slot is filled. It has then emptied the first filled slot in that order and left every other slot as it was. Without a filled slot, the cache was already empty and stays so. |
| Cache.ClearCacheAsWrittenLeavesStaleSlot | portal/api.py:194-197 | With two cached listings, the loop as written raises and leaves one slot. The next call then serves the old data unfetched. |
| Cache.Wrap | portal/api.py:200-201 | A single type is wrapped into a one-element list. A list is used as given. |
| Cache.ListCertRequests | portal/api.py:199-203 | The result is the order-preserving subsequence of all certificate requests whose type is in the list. Each such request occurs as often as in the listing, and no other request occurs. The fetch behaviour is the listing's. |
| Cache.SingleTypeMatchesExactly | portal/api.py:199-203 | With a single type, every request returned has exactly that type id. |
| ProfileForm.OrElse | portal/api.py:207-212 | An override replaces the profile's value unless it is `None` or the empty string. |
| ProfileForm.UpdateForm | portal/api.py:205-222 | The form has five header pairs plus one pair per certificate and one per device. The header keys are fixed and in a fixed order. The certificate pairs precede the device pairs. |
| ProfileForm.UpdateFormCarriesChosenValues | portal/api.py:205-222 | Read back key by key, the form gives each header field with its falsy fallback. Certificates fall back when `None` or empty; devices only when `None`. Records are unwrapped to their ids, in input order. |
| ProfileForm.EmptyListsAreTreatedDifferently | portal/api.py:213-219 | `device_ids=[]` sends no device, while `certificate_ids=[]` sends the profile's own certificates. |
| ProfileForm.EmptyStringsFallBack | portal/api.py:207-212 | Empty-string overrides produce the same header as no overrides at all. |
| Camel.CamelToUnderscore | portal/cli.py:50-52 | The converted name is the lower-cased input with underscores inserted. No other character is added, removed or reordered, and no capital letter is left. |
| Camel.Idempotent | portal/cli.py:50-52 | Converting twice is converting once. |
| Camel.LowerCaseUnchanged | portal/cli.py:50-52 | A name without capitals is unchanged. |
| Camel.CompoundName | portal/cli.py:50-52 | A lower-case word followed by one capitalised word becomes `word_capitalised`, lower-cased. |
| Cli.DashesToUnderscores | portal/cli.py:79 | Every `-` becomes `_`, and every other character is kept in place. |
| Cli.HandlerName | portal/cli.py:79 | The handler name is `cmd_` followed by at least as many characters as the command has, none of them a dash or a capital. |
| Cli.EveryCommandHasHandler | portal/cli.py:54-80 | Every key of the command table names a `cmd_*` function the module defines, so the lookup in `main` never fails. |
| Cli.ArgcBounds | portal/cli.py:87-91 | An absent or zero `argc` is not enforced. An integer n means (n, n). A tuple gives its bounds. |
| Cli.Dispatch | portal/cli.py:68-94 | No word gives usage. An unknown word is a missing command if it starts with `-`, else an unknown command. Otherwise `main` proceeds iff getopt accepts the words and the argument count is within bounds. It then calls the handler of that name with the positional rest. The option dictionary is the one built from getopt's list, and debug is on iff `-d` was given. |
| Cli.WhoamiIgnoresArgCount | portal/cli.py:65 | `whoami`'s `argc=0` is falsy, so it runs with any number of arguments. |
| Cli.AddDeviceTakesOneArgument | portal/cli.py:57 | `addDevice` runs only with exactly one positional argument. |
| Options.ShortHasArg | portal/cli.py:84 | An option letter is rejected iff it is not in the spec (a `:` never matches). It takes an argument iff its first occurrence is followed by `:`. |
| Options.UpToSplits | portal/cli.py:84 | The name of a refused long option is the longest part after `--` without `=`. It is followed by `=` or by the end of the word, and it is the whole rest when there is no `=`. |
| Options.Getopt | portal/cli.py:84 | The positional rest is a suffix of the words. Every parsed option is declared, and a flag carries no argument. |
| Options.GetoptRoundTrip | portal/cli.py:84 | Any well-formed option list, written one option per word with each argument as the next word, followed by words that end the options, parses back to that list and those words. |
| Options.UndeclaredOptionRejected | portal/cli.py:84 | A letter the spec does not declare, or `:`, is refused as not recognized, naming the letter. |
| Options.MissingArgumentRejected | portal/cli.py:84 | An option that takes an argument but ends the line is refused as needing an argument. |
| Options.LongOptionRejected | portal/cli.py:84 | Any `--name` or `--name=value` is refused as not recognized, naming `name` without the dashes or the value: no long option is declared. |
| Options.ValueOf | portal/cli.py:85 | An empty argument is stored as `True`, any other as the string itself. |
| Options.OptionDict | portal/cli.py:85 | The keys are exactly the parsed option letters. Each letter's value is that of its last occurrence. |
| Options.DebugFlagAlwaysAccepted | portal/cli.py:82-84 | With `d` prepended to any spec that does not start with `:`, a leading `-d` is accepted as a flag. Parsing then continues as without it. |
| Cli.OptionsDeclared | portal/cli.py:82-85 | The option dictionary only has letters from the spec. |
| Filters.DeviceSource | portal/cli.py:177-180 | The full device listing is used iff no ids are given and `-m`, `-u` or `include_all` asks for it. Otherwise the resolver's answer for the ids is used. |
| Filters.FilterDevices | portal/cli.py:176-189 | The two comprehensions give an order-preserving subsequence of the source. It is the same as one filter by "is a miss, or matches every pattern given". |
| Filters.DeviceFiltersKeepMisses | portal/cli.py:181-188 | Every miss survives, in order. Every record kept matches every given pattern, and every such record is kept. |
| Filters.ProfileSource | portal/cli.py:292-295 | The full profile listing is used iff no ids are given and `-m`, `-i`, `-t` or `include_all` asks for it. |
| Filters.FilterProfilesAsWritten | portal/cli.py:305-309 | As written, `-t` makes `_filter_profiles` fail before reading any profile. Without `-t` it is the filter below. |
| Filters.FilterProfiles | portal/cli.py:291-309 | The three comprehensions give an order-preserving subsequence of the source. It is the same as one filter by "is a miss, or matches name, app identifier and kind". |
| Filters.ProfileFiltersKeepMisses | portal/cli.py:296-309 | Every miss survives, in order. Exactly the matching records are kept. |
| Filters.TypeFilterSelectsKind | portal/cli.py:305-309 | With the intended comparison, `-t kind` keeps exactly the records of that kind. |
| Filters.ListingShowsEverything | portal/cli.py:191-193 | `listProfiles` with no ids and no filter shows every profile, in order. |
| Filters.ActOnFound | portal/cli.py:150-161 | The exit status is 1 iff some entry is a miss, else 0. With `-n` no call is made; otherwise exactly the found records are acted on, in order. |
| Resources.FirstMiss | portal/cli.py:252-253 | The position of the first miss: every entry before it is a record, and the entry there, if any, is a miss. |
| Regenerate.ExpiryDecidedByStatus | portal/api.py:254-255 | Expiry is the status string `Expired`: such a profile is always renewed, and under any other status the decision rests on the device count. |
| Regenerate.Decide | portal/cli.py:256-264 | A profile is skipped iff it is not expired and its device count equals the number of devices it should hold. That is none for app store and all devices otherwise. Expired profiles are always regenerated. Development profiles get the development certificates; others get the distribution certificates. |
| Regenerate.SkipRuleByKind | portal/cli.py:256-264 | When the type name is `profile_type`, an unexpired app-store profile is never regenerated. Other unexpired profiles are regenerated iff their device count differs from the device total. |
| Regenerate.RenewalForm | portal/cli.py:272-274 | The regeneration call sends exactly the chosen devices; an app-store profile loses all its devices. It sends the chosen certificates, or the profile's own when there are none. The other fields are the profile's. |
| Regenerate.Step | portal/cli.py:253-274 | A profile leads to one update call iff it is selected (by `-a` or by its id), not skipped, and `-n` is absent. |
| Regenerate.LoopAsWritten | portal/cli.py:252-274 | As written, the loop stops with a `TypeError` iff some entry is a miss, at the first miss. The calls it has made by then are exactly the planned calls for the records before that miss. |
| Regenerate.RegenerateAsWritten | portal/cli.py:244-254 | No ids and no `-a` is the usage error. Otherwise the command as written fails iff the resolver returned a miss. |
| Regenerate.AsWrittenStopsOnMiss | portal/cli.py:251-253 | An unknown id stops the command as written before anything is regenerated. |
| Regenerate.PlannedCalls | portal/cli.py:252-274 | Every planned call is for a selected, unskipped profile, and every such profile has a planned call. `-n` plans nothing. |
| Regenerate.Regenerate | portal/cli.py:244-274 | Apart from service errors, the corrected command fails only without ids and `-a`. Its exit status is 1 iff some id was not found. It plans the calls for the found profiles, in order. |
| Regenerate.Send | portal/api.py:123-124 | Calls go out in order. The calls made are a prefix of those planned. All are made, with no error, iff the service accepts every one. Otherwise the last call made is the first one rejected, and its rejection is the error. |
| Regenerate.NothingSentAfterRejection | portal/cli.py:101-102 | A rejected call ends the command: no call after it is made. |
| Regenerate.AgreeWithoutMisses | portal/cli.py:252-274 | Without misses, the command as written and the corrected one send the same calls. |
| Legacy.CommandOf | portal.py:205-243 | No argument is an error. `update-profiles` and `download-profiles` select their command; any other word lists the test profiles. |
| Legacy.Classify | portal.py:229-231 | Exactly one of the three flags holds. Development is decided by the type, and ad hoc by a positive device count. |
| Legacy.ClassifyAgreesWithProfileType | portal.py:229-231 | The script's classification agrees with `profile_type` exactly when the type is `Development` or the device count is not negative. |
| Legacy.DownloadName | portal.py:232-239 | The file is `<kind>.mobileprovision`. It is exactly that for the wildcard identifier `*`, and `<identifier>/<kind>.mobileprovision` otherwise. |
| Legacy.SameAppSameFileIffSameKind | portal.py:228-240 | Two profiles of one app go to the same file iff they are of the same kind, so the later one overwrites. |
| Legacy.ForChosenApp | portal.py:211-213 | Both loops skip exactly the profiles whose app identifier differs from `-a`. The rest is an order-preserving subsequence in which each kept profile occurs as often as in the listing. Without `-a` nothing is skipped. |
| Legacy.DownloadPlan | portal.py:222-240 | One download per chosen profile, in listing order, each to its own file name. Every profile for the chosen app is downloaded; without `-a` every profile is. |
| Legacy.LegacyDevices | portal.py:218 | All devices are sent iff the device count is nonzero and the name contains neither `DISTRO` nor `AppStore`. Otherwise none are sent. |
| Legacy.LegacyCertificates | portal.py:219 | The development certificates go exactly to profiles whose type is `Development`. |
| Legacy.RevisionsAgreeOnChoice | portal.py:218-219 | Both revisions choose certificates alike. They choose the same devices unless the name carries a marker or a development profile holds no device. |
| Legacy.UpdatePlan | portal.py:205-221 | One planned update call per chosen profile, in listing order, with no skip rule, using the script's device and certificate choice. Every profile for the chosen app has a planned call; without `-a` every profile has one. |
| Legacy.ScriptSendsChosenInOrder | portal.py:205-221 | The calls the script makes are the updates of the first chosen profiles, in listing order. All chosen profiles get theirs when the service accepts every call. |
| Legacy.ScriptStopsAtRejection | portal.py:102-103 | The script ends early iff the service rejects the update of some chosen profile. It then ends at the first such profile, after every earlier update was accepted, because the `APIException` is never caught. |
| Legacy.TestProfiles | portal.py:241-243 | The fallback listing is the order-preserving subsequence of profiles whose name starts with `Test`. Each such profile occurs as often as in the listing, and no other does. |

## Left out

- HTTP, cookies, redirects, status-code checks, JSON decoding and UUID generation: responses, pages and the request id are parameters.
- HTML scraping of the login form (`_LoginHTMLParser`). It depends on the standard HTML parser. When no form is found, `parser.url` was never set, so `AttributeError` is raised instead of the intended `APIException` (portal/api.py:88).
- Credential discovery (`_find_credentials`): environment and configuration-file reading.
- The script's hard-coded default credentials and its `-u`/`-p` options: they only feed the login.
- `download_profile`, `_ensure_parents_exist` and `cmd_get_profile`'s paths: file-system and network work. Only the script's file-name rule is modelled.
- Printing, progress lines, `usage`, `error` and `sys.exit`.
- `setup.py`: a packaging file read.
- Regular-expression semantics of `-m` and `-u`: an abstract `search` predicate.
- `-m ''` (or `-u ''`): the empty argument is stored as `True` (portal/cli.py:85). `re.search(True, ...)` then raises `TypeError` (portal/cli.py:184). The model passes the stored `Flag` to the abstract `search` and does not model that exception.
- Names the package calls but its API never defines: `get_device`, `get_provisioning_profile`, `profile_type_name`, `add_device`, `delete_device`, `delete_provisioning_profile`, `enable_device`, `user` and `team_id`. They are parameters, or their calls are left out.
- The request parameters of `_list_*` and the URLs: transport detail.
- The old `"Error %" % code` format on a non-200 response: it raises `ValueError`, but only on an I/O path.
- Envelopes lacking `userString`, `resultString` or `resultCode`, or with a non-integer code: `KeyError` and comparison on foreign types are not modelled. The envelope fields are typed.
- Options.Getopt: long options are not modelled. The tool declares none, so every `--name` is an error, as in the standard `getopt`. The error carries the option's name only, never the message text (`option --name not recognized`).
- Legacy.UpdatePlan: states the planned calls. A rejected update raises `APIException` (portal.py:102-103). Nothing in the script catches it, so the script ends at that call. `Legacy.ScriptSendsChosenInOrder` and `Legacy.ScriptStopsAtRejection` state the calls made, through `Regenerate.Send`.
- Regenerate.LoopAsWritten: the calls it states are those the loop makes when the service accepts each one. A rejected update raises `APIServiceException` (portal/api.py:123-124), which `main` reports (portal/cli.py:101-102), so the command ends early at that call. `Regenerate.Send` models that cut-off on its own; the two are not composed.
- Regenerate.PlannedCalls: states the planned calls. Which of them are made once the service rejects one is stated by `Regenerate.Send`, not here.
- Regenerate.Regenerate: its result is the planned calls, not the calls made. A rejected update (portal/cli.py:273-274) ends the command at that call, as `Regenerate.Send` states. A rejected listing call (portal/cli.py:248-251) ends it before any update; the listings are parameters, so that case is not modelled.
- Cli.Dispatch: stops at the call of the handler. The login before it, a handler arity mismatch (`TypeError`) and `KeyboardInterrupt` are left out.
- `cmd_list_certificates`, `cmd_list_apps`, `cmd_add_device` and `cmd_whoami`: output only, beyond the pieces above.
- The `-t` value as a kind: the corrected `-t` filter compares the option with the kind's name (`development`, `adhoc`, `appstore`).
- In `update-profiles`, the flags set when the name contains `DISTRO` (portal.py:214-216) are never read.

## Findings

| source | as written | input that shows it | evidently intended | confidence | as-written member | corrected member |
|---|---|---|---|---|---|---|
| portal/api.py:194-197 | `clear_cache` deletes attributes while iterating the instance `__dict__` | an instance on which `all_devices()` and `all_provisioning_profiles()` were both called: the first deletion changes the dictionary, the next step raises `RuntimeError`, and one listing stays cached | every `*_cache` attribute is removed | high, not executed | Cache.ClearCacheAsWritten | Cache.ClearCache |
| portal/cli.py:252-253 | `cmd_regenerate_profile` reads `profile['provisioningProfileId']` on every entry, including the resolver's misses (plain strings) | `portal regenerateProfile NOSUCHID`: the resolver returns `['NOSUCHID']`, and indexing a string with a string raises `TypeError` | report the miss and continue with exit status 1, as `cmd_delete_profile` does | medium, not executed | Regenerate.RegenerateAsWritten | Regenerate.Regenerate |
| portal/cli.py:305-309 | `_filter_profiles` calls `api.profile_type(opts['t'])`, and `profile_type` indexes its argument with `'type'` | `portal listProfiles -t adhoc`: `'adhoc'['type']` raises `TypeError` before any profile is read | keep the profiles whose `profile_type` equals the `-t` value | medium, not executed | Filters.FilterProfilesAsWritten | Filters.FilterProfiles |

=== FILE: cache.dfy ===
/** The four memoized listings of an `API` instance (`cached_method`) and
    `clear_cache`. The instance's attributes are modelled as one optional slot per
    listing; each accessor takes the outcome the underlying list call would have
    and reports how many times it ran that call (0 or 1). */
module Cache {
  import opened Wrappers
  import opened Resources
  import opened Envelope
  import Seqs

  datatype Cache = Cache(
    certRequests: Option<seq<CertRequest>>,
    appIds: Option<seq<AppId>>,
    profiles: Option<seq<Profile>>,
    devices: Option<seq<Device>>)

  /** A fresh instance has no `*_cache` attributes. */
  const Empty := Cache(None, None, None, None)

  /** The outcome of one `all_*()` call: the instance's cache afterwards, the list
      returned or the error raised, and how many underlying fetches ran. */
  datatype Access<T> = Access(cache: Cache, result: Result<seq<T>, ServiceError>, fetches: nat)

  datatype Memo<T> = Memo(slot: Option<T>, result: Result<T, ServiceError>, fetches: nat)

  /** `cached_method`'s wrapper on one slot: fetch only when the attribute is
      missing, and store the value only when the fetch returned (an exception
      leaves the attribute unset). */
  function Memoize<T>(slot: Option<T>, fetch: Result<T, ServiceError>): (m: Memo<T>)
    ensures slot.Some? ==> m.fetches == 0 && m.result == Success(slot.value) && m.slot == slot
    ensures slot.None? ==> m.fetches == 1 && m.result == fetch
    ensures slot.None? ==> m.slot == (if fetch.Success? then Some(fetch.value) else None)
    ensures m.result.Success? ==> m.slot == Some(m.result.value)
  {
    match slot
    case Some(v) => Memo(slot, Success(v), 0)
    case None =>
      match fetch
      case Success(v) => Memo(Some(v), fetch, 1)
      case Failure(_) => Memo(None, fetch, 1)
  }

  /** Once a value is stored, every later call returns it without fetching,
      whatever the backend would now answer. */
  lemma MemoizeIsStable<T>(slot: Option<T>, first: Result<T, ServiceError>, later: Result<T, ServiceError>)
    ensures var m := Memoize(slot, first);
            m.result.Success? ==> Memoize(m.slot, later) == Memo(m.slot, m.result, 0)
  {
  }

  function AllCertRequests(c: Cache, fetch: Result<seq<CertRequest>, ServiceError>): (a: Access<CertRequest>)
    ensures c.certRequests.Some? ==> a.fetches == 0 && a.result == Success(c.certRequests.value) && a.cache == c
    ensures c.certRequests.None? ==> a.fetches == 1 && a.result == fetch
    ensures c.certRequests.None? ==> a.cache.certRequests == (if fetch.Success? then Some(fetch.value) else None)
    ensures a.cache.appIds == c.appIds && a.cache.profiles == c.profiles && a.cache.devices == c.devices
  {
    var m := Memoize(c.certRequests, fetch);
    Access(c.(certRequests := m.slot), m.result, m.fetches)
  }

  function AllAppIds(c: Cache, fetch: Result<seq<AppId>, ServiceError>): (a: Access<AppId>)
    ensures c.appIds.Some? ==> a.fetches == 0 && a.result == Success(c.appIds.value) && a.cache == c
    ensures c.appIds.None? ==> a.fetches == 1 && a.result == fetch
    ensures c.appIds.None? ==> a.cache.appIds == (if fetch.Success? then Some(fetch.value) else None)
    ensures a.cache.certRequests == c.certRequests && a.cache.profiles == c.profiles && a.cache.devices == c.devices
  {
    var m := Memoize(c.appIds, fetch);
    Access(c.(appIds := m.slot), m.result, m.fetches)
  }

  function AllProfiles(c: Cache, fetch: Result<seq<Profile>, ServiceError>): (a: Access<Profile>)
    ensures c.profiles.Some? ==> a.fetches == 0 && a.result == Success(c.profiles.value) && a.cache == c
    ensures c.profiles.None? ==> a.fetches == 1 && a.result == fetch
    ensures c.profiles.None? ==> a.cache.profiles == (if fetch.Success? then Some(fetch.value) else None)
    ensures a.cache.certRequests == c.certRequests && a.cache.appIds == c.appIds && a.cache.devices == c.devices
  {
    var m := Memoize(c.profiles, fetch);
    Access(c.(profiles := m.slot), m.result, m.fetches)
  }

  function AllDevices(c: Cache, fetch: Result<seq<Device>, ServiceError>): (a: Access<Device>)
    ensures c.devices.Some? ==> a.fetches == 0 && a.result == Success(c.devices.value) && a.cache == c
    ensures c.devices.None? ==> a.fetches == 1 && a.result == fetch
    ensures c.devices.None? ==> a.cache.devices == (if fetch.Success? then Some(fetch.value) else None)
    ensures a.cache.certRequests == c.certRequests && a.cache.appIds == c.appIds && a.cache.profiles == c.profiles
  {
    var m := Memoize(c.devices, fetch);
    Access(c.(devices := m.slot), m.result, m.fetches)
  }

  /** The first call fetches exactly once and stores what it got; the second call
      returns that stored list with no fetch. Stated for every slot. */
  lemma FirstCallFetchesLaterCallsDoNot(c: Cache,
      f1: Result<seq<CertRequest>, ServiceError>, f1': Result<seq<CertRequest>, ServiceError>,
      f2: Result<seq<AppId>, ServiceError>, f2': Result<seq<AppId>, ServiceError>,
      f3: Result<seq<Profile>, ServiceError>, f3': Result<seq<Profile>, ServiceError>,
      f4: Result<seq<Device>, ServiceError>, f4': Result<seq<Device>, ServiceError>)
    requires c == Empty
    ensures AllCertRequests(c, f1).fetches == 1 && AllCertRequests(c, f1).result == f1
    ensures f1.Success? ==> var a := AllCertRequests(c, f1);
            AllCertRequests(a.cache, f1') == Access(a.cache, f1, 0)
    ensures AllAppIds(c, f2).fetches == 1 && AllAppIds(c, f2).result == f2
    ensures f2.Success? ==> var a := AllAppIds(c, f2);
            AllAppIds(a.cache, f2') == Access(a.cache, f2, 0)
    ensures AllProfiles(c, f3).fetches == 1 && AllProfiles(c, f3).result == f3
    ensures f3.Success? ==> var a := AllProfiles(c, f3);
            AllProfiles(a.cache, f3') == Access(a.cache, f3, 0)
    ensures AllDevices(c, f4).fetches == 1 && AllDevices(c, f4).result == f4
    ensures f4.Success? ==> var a := AllDevices(c, f4);
            AllDevices(a.cache, f4') == Access(a.cache, f4, 0)
  {
  }

  /** Filling one slot leaves the other three exactly as they were. */
  lemma SlotsAreIndependent(c: Cache, f: Result<seq<Device>, ServiceError>, g: Result<seq<Profile>, ServiceError>)
    ensures var d := AllDevices(c, f).cache;
            d.certRequests == c.certRequests && d.appIds == c.appIds && d.profiles == c.profiles
    ensures var p := AllProfiles(c, g).cache;
            p.certRequests == c.certRequests && p.appIds == c.appIds && p.devices == c.devices
    ensures AllProfiles(AllDevices(c, f).cache, g).result == AllProfiles(c, g).result
    ensures AllProfiles(AllDevices(c, f).cache, g).fetches == AllProfiles(c, g).fetches
  {
  }

  /** `clear_cache` as intended: every slot is emptied. */
  function ClearCache(c: Cache): (r: Cache)
    ensures r.certRequests.None? && r.appIds.None? && r.profiles.None? && r.devices.None?
  {
    Empty
  }

  /** After clearing, the next call to any accessor fetches again and returns the
      fresh answer, never data stored before. */
  lemma ClearForcesRefetch(c: Cache,
      f1: Result<seq<CertRequest>, ServiceError>, f2: Result<seq<AppId>, ServiceError>,
      f3: Result<seq<Profile>, ServiceError>, f4: Result<seq<Device>, ServiceError>)
    ensures AllCertRequests(ClearCache(c), f1).fetches == 1 && AllCertRequests(ClearCache(c), f1).result == f1
    ensures AllAppIds(ClearCache(c), f2).fetches == 1 && AllAppIds(ClearCache(c), f2).result == f2
    ensures AllProfiles(ClearCache(c), f3).fetches == 1 && AllProfiles(ClearCache(c), f3).result == f3
    ensures AllDevices(ClearCache(c), f4).fetches == 1 && AllDevices(ClearCache(c), f4).result == f4
  {
  }

  datatype SlotName = CertRequestsSlot | AppIdsSlot | ProfilesSlot | DevicesSlot

  predicate Filled(c: Cache, s: SlotName) {
    match s
    case CertRequestsSlot => c.certRequests.Some?
    case AppIdsSlot => c.appIds.Some?
    case ProfilesSlot => c.profiles.Some?
    case DevicesSlot => c.devices.Some?
  }

  /** `delattr(self, name)` for one slot: that slot is emptied, the others kept. */
  function Unset(c: Cache, s: SlotName): (r: Cache)
    ensures !Filled(r, s)
    ensures s != CertRequestsSlot ==> r.certRequests == c.certRequests
    ensures s != AppIdsSlot ==> r.appIds == c.appIds
    ensures s != ProfilesSlot ==> r.profiles == c.profiles
    ensures s != DevicesSlot ==> r.devices == c.devices
  {
    match s
    case CertRequestsSlot => c.(certRequests := None)
    case AppIdsSlot => c.(appIds := None)
    case ProfilesSlot => c.(profiles := None)
    case DevicesSlot => c.(devices := None)
  }

  /** `i` is the position of the first filled slot in `order`. */
  predicate FirstFilledAt(c: Cache, order: seq<SlotName>, i: int) {
    0 <= i < |order| && Filled(c, order[i]) && forall j :: 0 <= j < i ==> !Filled(c, order[j])
  }

  /** The loop of `clear_cache` over the attributes in iteration order `order`:
      the first `*_cache` attribute met is deleted, and the next step of the
      iteration raises `RuntimeError` because the dictionary changed size.
      Returns the cache afterwards and whether the error was raised. */
  function DeleteWhileIterating(c: Cache, order: seq<SlotName>): (r: (Cache, bool))
    ensures r.1 <==> exists i :: 0 <= i < |order| && Filled(c, order[i])
    ensures !r.1 ==> r.0 == c
    ensures r.1 ==> exists i :: FirstFilledAt(c, order, i) && r.0 == Unset(c, order[i])
    decreases |order|
  {
    if |order| == 0 then (c, false)
    else if Filled(c, order[0]) then
      assert FirstFilledAt(c, order, 0);
      (Unset(c, order[0]), true)
    else
      var r := DeleteWhileIterating(c, order[1..]);
      if r.1 then
        var i :| FirstFilledAt(c, order[1..], i) && r.0 == Unset(c, order[1..][i]);
        assert FirstFilledAt(c, order, i + 1);
        r
      else
        assert forall i :: 1 <= i < |order| ==> order[i] == order[1..][i - 1];
        r
  }

  /** `clear_cache` as written. Iterating the instance `__dict__` meets every
      `*_cache` attribute, in an order (`order`) that depends on hashing: the
      call raises exactly when some listing is cached, after emptying only the
      first cached slot in that order; otherwise nothing was cached and nothing
      changes. */
  function ClearCacheAsWritten(c: Cache, order: seq<SlotName>): (r: (Cache, bool))
    requires forall s: SlotName :: s in order
    ensures r.1 <==> exists s: SlotName :: Filled(c, s)
    ensures !r.1 ==> r.0 == c && c == Empty
    ensures r.1 ==> exists i :: FirstFilledAt(c, order, i) && r.0 == Unset(c, order[i])
  {
    var r := DeleteWhileIterating(c, order);
    assert (exists s: SlotName :: Filled(c, s)) ==> exists i :: 0 <= i < |order| && Filled(c, order[i]) by {
      if s: SlotName :| Filled(c, s) {
        assert s in order;
        var i :| 0 <= i < |order| && order[i] == s;
        assert Filled(c, order[i]);
      }
    }
    assert !Filled(c, CertRequestsSlot) && !Filled(c, AppIdsSlot) && !Filled(c, ProfilesSlot) && !Filled(c, DevicesSlot)
           ==> c == Empty;
    r
  }

  /** With two listings cached, the loop as written raises and leaves one of them
      in place, so the next call on that slot returns the old data unfetched. */
  lemma ClearCacheAsWrittenLeavesStaleSlot(ds: seq<Device>, ps: seq<Profile>, f: Result<seq<Profile>, ServiceError>)
    ensures var c := Cache(None, None, Some(ps), Some(ds));
            var order := [DevicesSlot, ProfilesSlot, CertRequestsSlot, AppIdsSlot];
            && (forall s: SlotName :: s in order)
            && var r := ClearCacheAsWritten(c, order);
               r.1 && AllProfiles(r.0, f) == Access(r.0, Success(ps), 0)
  {
    var order := [DevicesSlot, ProfilesSlot, CertRequestsSlot, AppIdsSlot];
    forall s: SlotName
      ensures s in order
    {
      match s
      case DevicesSlot => assert order[0] == s;
      case ProfilesSlot => assert order[1] == s;
      case CertRequestsSlot => assert order[2] == s;
      case AppIdsSlot => assert order[3] == s;
    }
  }

  /** The argument of `list_cert_requests`: one type id, or a list of them. */
  datatype TypeArg = OneType(t: string) | TypeList(ts: seq<string>)

  /** `if not isinstance(typ, list): typ = [typ]` */
  function Wrap(typ: TypeArg): (ts: seq<string>)
    ensures typ.OneType? ==> ts == [typ.t]
    ensures typ.TypeList? ==> ts == typ.ts
  {
    match typ
    case OneType(t) => [t]
    case TypeList(ts) => ts
  }

  /** `list_cert_requests(typ)`: the cached certificate requests whose type id is
      one of `typ`, in their original order. */
  function ListCertRequests(c: Cache, fetch: Result<seq<CertRequest>, ServiceError>, typ: TypeArg): (a: Access<CertRequest>)
    ensures var all := AllCertRequests(c, fetch);
            a.cache == all.cache && a.fetches == all.fetches && a.result.Success? == all.result.Success?
    ensures var all := AllCertRequests(c, fetch);
            all.result.Success? ==>
              && Seqs.IsSubseq(a.result.value, all.result.value)
              && (forall i :: 0 <= i < |a.result.value| ==> a.result.value[i].certificateTypeDisplayId in Wrap(typ))
              && (forall i :: 0 <= i < |all.result.value| && all.result.value[i].certificateTypeDisplayId in Wrap(typ)
                   ==> all.result.value[i] in a.result.value)
    ensures var all := AllCertRequests(c, fetch);
            all.result.Success? ==>
              forall x :: multiset(a.result.value)[x]
                          == (if x.certificateTypeDisplayId in Wrap(typ) then multiset(all.result.value)[x] else 0)
  {
    var all := AllCertRequests(c, fetch);
    match all.result
    case Failure(e) => Access(all.cache, Failure(e), all.fetches)
    case Success(certs) =>
      var ts := Wrap(typ);
      var wanted := (x: CertRequest) => x.certificateTypeDisplayId in ts;
      Seqs.KeepCounts(certs, wanted);
      Access(all.cache, Success(Seqs.Keep(certs, wanted)), all.fetches)
  }

  /** Wrapping a single type makes the test exact equality of type ids (without it,
      Python's `in` on a string would test for a substring). */
  lemma SingleTypeMatchesExactly(c: Cache, fetch: Result<seq<CertRequest>, ServiceError>, t: string)
    requires AllCertRequests(c, fetch).result.Success?
    ensures var r := ListCertRequests(c, fetch, OneType(t)).result.value;
            forall i :: 0 <= i < |r| ==> r[i].certificateTypeDisplayId == t
  {
  }
}

=== FILE: camel.dfy ===
/** `camelcase_to_underscore`: two regular-expression substitutions followed by
    `lower()`, written out as left-to-right scans. */
module Camel {
  import opened Text

  /** Length of the run of `[a-z]` at the start of `s`. */
  function LowerRun(s: string): (n: nat)
    ensures n <= |s|
    ensures forall i :: 0 <= i < n ==> IsLower(s[i])
    ensures n == |s| || !IsLower(s[n])
  {
    if |s| == 0 || !IsLower(s[0]) then 0 else 1 + LowerRun(s[1..])
  }

  /** `re.sub('(.)([A-Z][a-z]+)', r'\1_\2', s)`: at each position, any character
      but a newline followed by a capital and at least one lower-case letter gets
      an underscore after it; the match swallows the whole lower-case run. */
  function SplitWords(s: string): string
    decreases |s|
  {
    if |s| < 3 then s
    else if s[0] != '\n' && IsUpper(s[1]) && IsLower(s[2]) then
      var j := 2 + LowerRun(s[2..]);
      [s[0], '_'] + s[1..j] + SplitWords(s[j..])
    else [s[0]] + SplitWords(s[1..])
  }

  /** `re.sub('([a-z0-9])([A-Z])', r'\1_\2', s)` */
  function SplitHumps(s: string): string
    decreases |s|
  {
    if |s| < 2 then s
    else if (IsLower(s[0]) || IsDigit(s[0])) && IsUpper(s[1]) then
      [s[0], '_', s[1]] + SplitHumps(s[2..])
    else [s[0]] + SplitHumps(s[1..])
  }

  /** The conversion only lower-cases and inserts underscores: no other character
      is added, dropped or moved, and no capital letter is left. */
  function CamelToUnderscore(name: string): (r: string)
    ensures Ins(LowerString(name), r)
    ensures NoCapitals(r)
  {
    var words := SplitWords(name);
    var humps := SplitHumps(words);
    SplitWordsInserts(name);
    SplitHumpsInserts(words);
    InsTrans(name, words, humps);
    InsLower(name, humps);
    LowerString(humps)
  }

  /** `t` is `s` with zero or more `_` characters inserted. */
  predicate Ins(s: string, t: string)
    decreases |t|
  {
    if |t| == 0 then |s| == 0
    else (t[0] == '_' && Ins(s, t[1..])) || (|s| > 0 && s[0] == t[0] && Ins(s[1..], t[1..]))
  }

  lemma {:induction false} InsRefl(s: string)
    ensures Ins(s, s)
  {
    if |s| > 0 {
      InsRefl(s[1..]);
    }
  }

  /** Inserting only ever lengthens. */
  lemma {:induction false} InsLength(s: string, t: string)
    requires Ins(s, t)
    ensures |s| <= |t|
    decreases |t|
  {
    if |t| > 0 {
      if t[0] == '_' && Ins(s, t[1..]) {
        InsLength(s, t[1..]);
      } else {
        InsLength(s[1..], t[1..]);
      }
    }
  }

  lemma {:induction false} InsConcat(a: string, b: string, c: string, d: string)
    requires Ins(a, c) && Ins(b, d)
    ensures Ins(a + b, c + d)
    decreases |c|
  {
    if |c| == 0 {
      assert a == [];
      assert a + b == b && c + d == d;
    } else {
      assert (c + d)[1..] == c[1..] + d;
      if c[0] == '_' && Ins(a, c[1..]) {
        InsConcat(a, b, c[1..], d);
      } else {
        assert (a + b)[1..] == a[1..] + b;
        InsConcat(a[1..], b, c[1..], d);
      }
    }
  }

  lemma {:induction false} InsTrans(a: string, b: string, c: string)
    requires Ins(a, b) && Ins(b, c)
    ensures Ins(a, c)
    decreases |c|
  {
    if |c| > 0 {
      if c[0] == '_' && Ins(b, c[1..]) {
        InsTrans(a, b, c[1..]);
      } else if b[0] == '_' && Ins(a, b[1..]) {
        InsTrans(a, b[1..], c[1..]);
      } else {
        InsTrans(a[1..], b[1..], c[1..]);
      }
    }
  }

  lemma {:induction false} InsLower(s: string, t: string)
    requires Ins(s, t)
    ensures Ins(LowerString(s), LowerString(t))
    decreases |t|
  {
    if |t| > 0 {
      if t[0] == '_' && Ins(s, t[1..]) {
        InsLower(s, t[1..]);
        assert LowerString(t)[1..] == LowerString(t[1..]);
      } else {
        InsLower(s[1..], t[1..]);
        assert LowerString(t)[1..] == LowerString(t[1..]);
        assert LowerString(s)[1..] == LowerString(s[1..]);
      }
    }
  }

  /** One underscore after the first character of a prefix, followed by any
      insertion into the rest. */
  lemma UnderscoreAfterFirst(s: string, j: int, t: string)
    requires 1 <= j <= |s| && Ins(s[j..], t)
    ensures Ins(s, [s[0], '_'] + s[1..j] + t)
  {
    InsRefl(s[1..j]);
    assert Ins(s[1..j], ['_'] + s[1..j]);
    InsRefl([s[0]]);
    InsConcat([s[0]], s[1..j], [s[0]], ['_'] + s[1..j]);
    assert [s[0]] + s[1..j] == s[..j];
    assert [s[0]] + (['_'] + s[1..j]) == [s[0], '_'] + s[1..j];
    InsConcat(s[..j], s[j..], [s[0], '_'] + s[1..j], t);
    assert s[..j] + s[j..] == s;
  }

  lemma {:induction false} SplitWordsInserts(s: string)
    ensures Ins(s, SplitWords(s))
    decreases |s|
  {
    if |s| < 3 {
      InsRefl(s);
    } else if s[0] != '\n' && IsUpper(s[1]) && IsLower(s[2]) {
      var j := 2 + LowerRun(s[2..]);
      SplitWordsInserts(s[j..]);
      UnderscoreAfterFirst(s, j, SplitWords(s[j..]));
    } else {
      SplitWordsInserts(s[1..]);
      InsRefl([s[0]]);
      InsConcat([s[0]], s[1..], [s[0]], SplitWords(s[1..]));
      assert [s[0]] + s[1..] == s;
    }
  }

  lemma {:induction false} SplitHumpsInserts(s: string)
    ensures Ins(s, SplitHumps(s))
    decreases |s|
  {
    if |s| < 2 {
      InsRefl(s);
    } else if (IsLower(s[0]) || IsDigit(s[0])) && IsUpper(s[1]) {
      SplitHumpsInserts(s[2..]);
      assert Ins(s[..2], [s[0], '_', s[1]]) by {
        assert [s[0], '_', s[1]][1..] == ['_', s[1]];
        assert ['_', s[1]][1..] == [s[1]];
        assert s[..2][1..] == [s[1]];
        InsRefl([s[1]]);
      }
      InsConcat(s[..2], s[2..], [s[0], '_', s[1]], SplitHumps(s[2..]));
      assert s[..2] + s[2..] == s;
    } else {
      SplitHumpsInserts(s[1..]);
      InsRefl([s[0]]);
      InsConcat([s[0]], s[1..], [s[0]], SplitHumps(s[1..]));
      assert [s[0]] + s[1..] == s;
    }
  }

  predicate NoCapitals(s: string) {
    forall i :: 0 <= i < |s| ==> !IsUpper(s[i])
  }

  lemma {:induction false} SplitWordsKeepsLowerCase(s: string)
    requires NoCapitals(s)
    ensures SplitWords(s) == s
    decreases |s|
  {
    if |s| >= 3 {
      SplitWordsKeepsLowerCase(s[1..]);
      assert [s[0]] + s[1..] == s;
    }
  }

  lemma {:induction false} SplitHumpsKeepsLowerCase(s: string)
    requires NoCapitals(s)
    ensures SplitHumps(s) == s
    decreases |s|
  {
    if |s| >= 2 {
      SplitHumpsKeepsLowerCase(s[1..]);
      assert [s[0]] + s[1..] == s;
    }
  }

  /** A name without capitals (such as `whoami`) is returned unchanged, so the
      conversion is idempotent. */
  lemma LowerCaseUnchanged(name: string)
    requires NoCapitals(name)
    ensures CamelToUnderscore(name) == name
    ensures CamelToUnderscore(CamelToUnderscore(name)) == CamelToUnderscore(name)
  {
    SplitWordsKeepsLowerCase(name);
    SplitHumpsKeepsLowerCase(name);
  }

  lemma Idempotent(name: string)
    ensures CamelToUnderscore(CamelToUnderscore(name)) == CamelToUnderscore(name)
  {
    LowerCaseUnchanged(CamelToUnderscore(name));
  }

  /** A lower-case word followed by one capitalised word, the shape of every
      command name: the underscore goes between them. */
  lemma LowerRunAll(t: string)
    requires forall i :: 0 <= i < |t| ==> IsLower(t[i])
    ensures LowerRun(t) == |t|
  {
  }

  lemma LetterThenCapitalised(c: char, cap: string)
    requires IsLower(c)
    requires |cap| >= 2 && IsUpper(cap[0]) && (forall i :: 1 <= i < |cap| ==> IsLower(cap[i]))
    ensures SplitWords([c] + cap) == [c, '_'] + cap
  {
    var s := [c] + cap;
    assert s[0] == c && s[1] == cap[0] && s[2] == cap[1];
    assert s[2..] == cap[1..];
    LowerRunAll(cap[1..]);
    assert s[1..|s|] == cap && s[|s|..] == [];
  }

  lemma {:induction false} WordThenCapitalised(w: string, cap: string)
    requires |w| > 0 && (forall i :: 0 <= i < |w| ==> IsLower(w[i]))
    requires |cap| >= 2 && IsUpper(cap[0]) && (forall i :: 1 <= i < |cap| ==> IsLower(cap[i]))
    ensures SplitWords(w + cap) == w + ['_'] + cap
    decreases |w|
  {
    var s := w + cap;
    if |w| == 1 {
      LetterThenCapitalised(w[0], cap);
      assert s == [w[0]] + cap;
    } else {
      assert s[0] == w[0] && s[1] == w[1];
      assert !IsUpper(s[1]);
      assert s[1..] == w[1..] + cap;
      WordThenCapitalised(w[1..], cap);
      assert SplitWords(s) == [s[0]] + SplitWords(s[1..]);
      assert [w[0]] + (w[1..] + ['_'] + cap) == w + ['_'] + cap;
    }
  }

  lemma {:induction false} NoHumpsUnchanged(s: string)
    requires forall i :: 0 <= i < |s| - 1 ==> !((IsLower(s[i]) || IsDigit(s[i])) && IsUpper(s[i + 1]))
    ensures SplitHumps(s) == s
    decreases |s|
  {
    if |s| >= 2 {
      NoHumpsUnchanged(s[1..]);
      assert [s[0]] + s[1..] == s;
    }
  }

  lemma LowerStringAppend(a: string, b: string)
    ensures LowerString(a + b) == LowerString(a) + LowerString(b)
  {
  }

  lemma LowerStringNoCapitals(s: string)
    requires NoCapitals(s)
    ensures LowerString(s) == s
  {
  }

  lemma NoHumpsInCompound(w: string, cap: string)
    requires |w| > 0 && (forall i :: 0 <= i < |w| ==> IsLower(w[i]))
    requires |cap| >= 2 && IsUpper(cap[0]) && (forall i :: 1 <= i < |cap| ==> IsLower(cap[i]))
    ensures var t := w + ['_'] + cap;
            forall i :: 0 <= i < |t| - 1 ==> !((IsLower(t[i]) || IsDigit(t[i])) && IsUpper(t[i + 1]))
  {
    var t := w + ['_'] + cap;
    forall i | 0 <= i < |t| - 1
      ensures !((IsLower(t[i]) || IsDigit(t[i])) && IsUpper(t[i + 1]))
    {
      if i < |w| - 1 {
        assert t[i + 1] == w[i + 1];
      } else if i == |w| - 1 {
        assert t[i + 1] == '_';
      } else if i == |w| {
        assert t[i] == '_';
      } else {
        assert t[i + 1] == cap[i - |w|];
      }
    }
  }

  /** `camelcase_to_underscore(w + U + rest)` for a lower-case word `w`, a capital
      `U` and a non-empty lower-case `rest` is `w + '_' + u + rest`. */
  lemma CompoundName(name: string, w: string, u: char, rest: string)
    requires name == w + [u] + rest
    requires |w| > 0 && (forall i :: 0 <= i < |w| ==> IsLower(w[i]))
    requires IsUpper(u) && |rest| > 0 && (forall i :: 0 <= i < |rest| ==> IsLower(rest[i]))
    ensures CamelToUnderscore(name) == w + ['_', Lower(u)] + rest
  {
    assert name == w + ([u] + rest);
    CapitalisedWordLowered(u, rest);
    WordThenCapitalisedLowered(w, [u] + rest);
    assert w + ['_'] + ([Lower(u)] + rest) == w + ['_', Lower(u)] + rest;
  }

  lemma CapitalisedWordLowered(u: char, rest: string)
    requires forall i :: 0 <= i < |rest| ==> IsLower(rest[i])
    ensures LowerString([u] + rest) == [Lower(u)] + rest
  {
    LowerStringAppend([u], rest);
    LowerStringNoCapitals(rest);
    assert LowerString([u]) == [Lower(u)];
  }

  lemma WordThenCapitalisedLowered(w: string, cap: string)
    requires |w| > 0 && (forall i :: 0 <= i < |w| ==> IsLower(w[i]))
    requires |cap| >= 2 && IsUpper(cap[0]) && (forall i :: 1 <= i < |cap| ==> IsLower(cap[i]))
    ensures CamelToUnderscore(w + cap) == w + ['_'] + LowerString(cap)
  {
    WordThenCapitalised(w, cap);
    NoHumpsInCompound(w, cap);
    NoHumpsUnchanged(w + ['_'] + cap);
    LowerStringAppend(w + ['_'], cap);
    LowerStringNoCapitals(w + ['_']);
  }
}

=== FILE: cli.dfy ===
/** `main` of the command-line tool up to the call of the command function: the
    command table, the handler name derived from the command, option parsing
    (Python 2's `getopt.getopt`, short options only), the option dictionary and
    the argument-count check. */
module Cli {
  import opened Wrappers
  import opened Text
  import opened Camel
  import opened Options

  /** The `argc` entry of a command: absent, an integer, or a `(lo, hi)` tuple. */
  datatype ArgcSpec = NoArgc | Count(n: int) | Between(lo: int, hi: int)

  datatype CommandSpec = CommandSpec(getopt: string, argc: ArgcSpec)

  /** `CMDS` */
  const Commands: map<string, CommandSpec> := map[
    "listCertificates" := CommandSpec("vr", NoArgc),
    "listDevices" := CommandSpec("vrm:u:", NoArgc),
    "addDevice" := CommandSpec("m:", Count(1)),
    "deleteDevice" := CommandSpec("nqm:u:", NoArgc),
    "enableDevice" := CommandSpec("nqm:u:", NoArgc),
    "listApps" := CommandSpec("vr", NoArgc),
    "listProfiles" := CommandSpec("vrt:i:m:", NoArgc),
    "getProfile" := CommandSpec("qai:o:", NoArgc),
    "regenerateProfile" := CommandSpec("vqnat:i:m:", NoArgc),
    "deleteProfile" := CommandSpec("nqt:i:m:", NoArgc),
    "whoami" := CommandSpec("", Count(0))
  ]

  /** The `cmd_*` functions the module defines. */
  const Handlers: set<string> := {
    "cmd_list_certificates", "cmd_list_apps", "cmd_list_devices", "cmd_add_device",
    "cmd_delete_device", "cmd_enable_device", "cmd_list_profiles", "cmd_get_profile",
    "cmd_regenerate_profile", "cmd_delete_profile", "cmd_whoami"
  }

  /** `s.replace('-', '_')` */
  function DashesToUnderscores(s: string): (t: string)
    ensures |t| == |s|
    ensures forall i :: 0 <= i < |s| ==> t[i] == (if s[i] == '-' then '_' else s[i])
  {
    if |s| == 0 then [] else [if s[0] == '-' then '_' else s[0]] + DashesToUnderscores(s[1..])
  }

  lemma NoDashesUnchanged(s: string)
    requires forall i :: 0 <= i < |s| ==> s[i] != '-'
    ensures DashesToUnderscores(s) == s
  {
  }

  /** `'cmd_%s' % camelcase_to_underscore(cmd).replace('-', '_')` */
  function HandlerName(cmd: string): (name: string)
    ensures |name| >= 4 + |cmd| && name[..4] == "cmd_"
    ensures forall i :: 4 <= i < |name| ==> name[i] != '-' && !IsUpper(name[i])
  {
    var base := CamelToUnderscore(cmd);
    InsLength(LowerString(cmd), base);
    "cmd_" + DashesToUnderscores(base)
  }

  /** A converted name made of letters and underscores is taken over as it is. */
  lemma HandlerOfUndashed(cmd: string, c: string, expected: string)
    requires CamelToUnderscore(cmd) == c && expected == "cmd_" + c
    requires forall i :: 0 <= i < |c| ==> c[i] == '_' || IsLower(c[i])
    ensures HandlerName(cmd) == expected
  {
    NoDashesUnchanged(c);
  }

  lemma CompoundHandler(cmd: string, w: string, u: char, l: char, rest: string, expected: string)
    requires cmd == w + [u] + rest
    requires |w| > 0 && (forall i :: 0 <= i < |w| ==> IsLower(w[i]))
    requires IsUpper(u) && |rest| > 0 && (forall i :: 0 <= i < |rest| ==> IsLower(rest[i]))
    requires l == Lower(u) && expected == "cmd_" + w + ['_', l] + rest
    ensures HandlerName(cmd) == expected
  {
    CompoundName(cmd, w, u, rest);
    HandlerOfUndashed(cmd, w + ['_', l] + rest, "cmd_" + w + ['_', l] + rest);
  }

  // One instance of `CompoundHandler` per two-word command. Each stays in its own
  // lemma: with all of them in `EveryCommandHasHandler`, the proof exceeds the
  // resource limit.
  lemma HandlerOfListCertificates(cmd: string)
    requires cmd == "listCertificates"
    ensures HandlerName(cmd) == "cmd_list_certificates"
  {
    CompoundHandler(cmd, "list", 'C', 'c', "ertificates", "cmd_list_certificates");
  }

  lemma HandlerOfListDevices(cmd: string)
    requires cmd == "listDevices"
    ensures HandlerName(cmd) == "cmd_list_devices"
  {
    CompoundHandler(cmd, "list", 'D', 'd', "evices", "cmd_list_devices");
  }

  lemma HandlerOfAddDevice(cmd: string)
    requires cmd == "addDevice"
    ensures HandlerName(cmd) == "cmd_add_device"
  {
    CompoundHandler(cmd, "add", 'D', 'd', "evice", "cmd_add_device");
  }

  lemma HandlerOfDeleteDevice(cmd: string)
    requires cmd == "deleteDevice"
    ensures HandlerName(cmd) == "cmd_delete_device"
  {
    CompoundHandler(cmd, "delete", 'D', 'd', "evice", "cmd_delete_device");
  }

  lemma HandlerOfEnableDevice(cmd: string)
    requires cmd == "enableDevice"
    ensures HandlerName(cmd) == "cmd_enable_device"
  {
    CompoundHandler(cmd, "enable", 'D', 'd', "evice", "cmd_enable_device");
  }

  lemma HandlerOfListApps(cmd: string)
    requires cmd == "listApps"
    ensures HandlerName(cmd) == "cmd_list_apps"
  {
    CompoundHandler(cmd, "list", 'A', 'a', "pps", "cmd_list_apps");
  }

  lemma HandlerOfListProfiles(cmd: string)
    requires cmd == "listProfiles"
    ensures HandlerName(cmd) == "cmd_list_profiles"
  {
    CompoundHandler(cmd, "list", 'P', 'p', "rofiles", "cmd_list_profiles");
  }

  lemma HandlerOfGetProfile(cmd: string)
    requires cmd == "getProfile"
    ensures HandlerName(cmd) == "cmd_get_profile"
  {
    CompoundHandler(cmd, "get", 'P', 'p', "rofile", "cmd_get_profile");
  }

  lemma HandlerOfRegenerateProfile(cmd: string)
    requires cmd == "regenerateProfile"
    ensures HandlerName(cmd) == "cmd_regenerate_profile"
  {
    CompoundHandler(cmd, "regenerate", 'P', 'p', "rofile", "cmd_regenerate_profile");
  }

  lemma HandlerOfDeleteProfile(cmd: string)
    requires cmd == "deleteProfile"
    ensures HandlerName(cmd) == "cmd_delete_profile"
  {
    CompoundHandler(cmd, "delete", 'P', 'p', "rofile", "cmd_delete_profile");
  }

  lemma HandlerOfWhoami(cmd: string)
    requires cmd == "whoami"
    ensures HandlerName(cmd) == "cmd_whoami"
  {
    assert NoCapitals(cmd) by {
      assert forall i :: 0 <= i < |cmd| ==> IsLower(cmd[i]);
    }
    LowerCaseUnchanged(cmd);
    NoDashesUnchanged(cmd);
  }

  /** Every key of the table names a handler the module defines, so the
      `globals()[fn_name]` lookup in `main` never fails. */
  lemma EveryCommandHasHandler(cmd: string)
    requires cmd in Commands
    ensures HandlerName(cmd) in Handlers
  {
    if cmd == "listCertificates" {
      HandlerOfListCertificates(cmd);
    } else if cmd == "listDevices" {
      HandlerOfListDevices(cmd);
    } else if cmd == "addDevice" {
      HandlerOfAddDevice(cmd);
    } else if cmd == "deleteDevice" {
      HandlerOfDeleteDevice(cmd);
    } else if cmd == "enableDevice" {
      HandlerOfEnableDevice(cmd);
    } else if cmd == "listApps" {
      HandlerOfListApps(cmd);
    } else if cmd == "listProfiles" {
      HandlerOfListProfiles(cmd);
    } else if cmd == "getProfile" {
      HandlerOfGetProfile(cmd);
    } else if cmd == "regenerateProfile" {
      HandlerOfRegenerateProfile(cmd);
    } else if cmd == "deleteProfile" {
      HandlerOfDeleteProfile(cmd);
    } else {
      HandlerOfWhoami(cmd);
    }
  }

  /** The bounds `main` enforces, if any: an absent or zero `argc` is falsy and
      not checked; an integer `n` means exactly `n`; a tuple is `(lo, hi)`. */
  function ArgcBounds(spec: ArgcSpec): (b: Option<(int, int)>)
    ensures b.None? <==> spec.NoArgc? || spec == Count(0)
    ensures spec.Count? && spec.n != 0 ==> b == Some((spec.n, spec.n))
    ensures spec.Between? ==> b == Some((spec.lo, spec.hi))
  {
    match spec
    case NoArgc => None
    case Count(n) => if n == 0 then None else Some((n, n))
    case Between(lo, hi) => Some((lo, hi))
  }

  predicate ArgcAccepts(spec: ArgcSpec, argc: nat) {
    match ArgcBounds(spec)
    case None => true
    case Some(b) => b.0 <= argc <= b.1
  }

  /** The ways `main` stops before calling the command. */
  datatype CliError =
    | Usage                                         // no command word
    | MissingCommand(word: string)                  // an option where the command belongs
    | UnknownCommand(word: string)
    | BadOption(command: string, error: GetoptError)
    | WrongArgCount(command: string, got: nat, expected: (int, int))

  /** What `main` hands over: the command function, the option dictionary, the
      positional arguments, and the API debug switch. */
  datatype Invocation = Invocation(
    command: string, handler: string, options: map<char, OptValue>, args: seq<string>, debug: bool)

  /** `main` from the command word to the call of `cmd_*`; `words` is the
      command line after the program name. */
  function Dispatch(words: seq<string>): (r: Result<Invocation, CliError>)
    ensures |words| == 0 ==> r == Failure(Usage)
    ensures |words| > 0 && words[0] !in Commands ==>
              r == Failure(if StartsWith(words[0], "-") then MissingCommand(words[0]) else UnknownCommand(words[0]))
    ensures r.Success? <==>
              && |words| > 0 && words[0] in Commands
              && Getopt(words[1..], "d" + Commands[words[0]].getopt).Success?
              && ArgcAccepts(Commands[words[0]].argc, |Getopt(words[1..], "d" + Commands[words[0]].getopt).value.1|)
    ensures r.Success? ==>
              && r.value.command == words[0]
              && r.value.handler == HandlerName(words[0]) && r.value.handler in Handlers
              && r.value.args == Getopt(words[1..], "d" + Commands[words[0]].getopt).value.1
              && r.value.options == OptionDict(Getopt(words[1..], "d" + Commands[words[0]].getopt).value.0)
              && IsSuffix(r.value.args, words[1..])
              && (r.value.debug <==> 'd' in r.value.options)
              && (forall k :: k in r.value.options ==> k == 'd' || k in Commands[words[0]].getopt)
  {
    if |words| == 0 then Failure(Usage)
    else
      var cmd := words[0];
      if cmd !in Commands then
        Failure(if StartsWith(cmd, "-") then MissingCommand(cmd) else UnknownCommand(cmd))
      else
        var entry := Commands[cmd];
        EveryCommandHasHandler(cmd);
        var spec := "d" + entry.getopt;
        var parsed := Getopt(words[1..], spec);
        if parsed.Failure? then Failure(BadOption(cmd, parsed.error))
        else
          var (optlist, args) := parsed.value;
          var options := OptionDict(optlist);
          OptionsDeclared(optlist, spec);
          match ArgcBounds(entry.argc)
          case Some(b) =>
            if !(b.0 <= |args| <= b.1) then Failure(WrongArgCount(cmd, |args|, b))
            else Success(Invocation(cmd, HandlerName(cmd), options, args, 'd' in options))
          case None => Success(Invocation(cmd, HandlerName(cmd), options, args, 'd' in options))
  }

  /** Every key of the option dictionary was declared in the spec. */
  lemma OptionsDeclared(optlist: OptList, spec: string)
    requires WellFormed(spec, optlist)
    ensures forall k :: k in OptionDict(optlist) ==> k in spec && k != ':'
  {
    forall k | k in OptionDict(optlist)
      ensures k in spec && k != ':'
    {
      var i :| 0 <= i < |optlist| && optlist[i].0 == k;
    }
  }

  /** `whoami` declares `argc=0`, which is falsy: any number of arguments is let through. */
  lemma WhoamiIgnoresArgCount(rest: seq<string>)
    ensures Dispatch(["whoami"] + rest).Success? <==> Getopt(rest, "d").Success?
  {
    var words := ["whoami"] + rest;
    assert words[0] == "whoami" && words[1..] == rest;
    assert Commands["whoami"] == CommandSpec("", Count(0));
    assert "d" + "" == "d";
  }

  lemma AddDeviceEntry(cmd: string)
    requires cmd == "addDevice"
    ensures cmd in Commands && Commands[cmd].argc == Count(1)
  {
  }

  /** `addDevice` declares `argc=1`: it runs with exactly one positional argument. */
  lemma AddDeviceTakesOneArgument(words: seq<string>)
    requires |words| > 0 && words[0] == "addDevice"
    ensures var r := Dispatch(words);
            r.Success? ==> |r.value.args| == 1
  {
    AddDeviceEntry(words[0]);
    var r := Dispatch(words);
    if r.Success? {
      assert ArgcAccepts(Count(1), |r.value.args|);
    }
  }
}

=== FILE: envelope.dfy ===
/** The pure part of `_api`: the query every signed call carries, the result-code
    rule for the decoded JSON envelope, and the messages of the service error in
    both revisions of the client. */
module Envelope {
  import opened Wrappers
  import opened Text

  type Form = seq<(string, string)>

  /** The five keys `_api` always sets, overriding any caller keyword of the same name. */
  const FixedKeys: set<string> := {"content-type", "accept", "requestId", "userLocale", "teamId"}

  /** The decoded response: the fields `_api` and the errors read, and the rest. */
  datatype Envelope<T> = Envelope(resultCode: int, userString: string, resultString: string, payload: T)

  datatype ServiceError = ServiceError(code: int, message: string)

  /** The query string map of a signed call; `requestId` is the fresh UUID and
      `teamId` the session's team id. */
  function SignedQuery(kwargs: map<string, string>, teamId: string, requestId: string): (q: map<string, string>)
    ensures q.Keys == kwargs.Keys + FixedKeys
    ensures q["content-type"] == "text/x-url-arguments"
    ensures q["accept"] == "application/json"
    ensures q["requestId"] == requestId
    ensures q["userLocale"] == "en_US"
    ensures q["teamId"] == teamId
    ensures forall k :: k in kwargs && k !in FixedKeys ==> q[k] == kwargs[k]
  {
    kwargs["content-type" := "text/x-url-arguments"]["accept" := "application/json"]
          ["requestId" := requestId]["userLocale" := "en_US"]["teamId" := teamId]
  }

  /** Result codes the client treats as success; 8500 is the backend's benign code. */
  predicate Accepted(code: int) {
    code == 0 || code == 8500
  }

  /** `APIServiceException`'s message: the user string and the code, then the
      result string only when it differs from the user string. The tail
      `: <resultString>)` marks the message: it is there iff the two strings differ. */
  function ServiceMessage(userString: string, code: int, resultString: string): (m: string)
    ensures StartsWith(m, userString)
    ensures StartsWith(m, userString + " (Error " + IntToString(code))
    ensures EndsWith(m, ": " + resultString + ")") <==> userString != resultString
  {
    var c := IntToString(code);
    var head := userString + " (Error " + c;
    if userString != resultString then
      var m := head + ": " + resultString + ")";
      assert m[..|userString|] == userString;
      assert m[..|head|] == head;
      assert m[|m| - |": " + resultString + ")"|..] == ": " + resultString + ")";
      m
    else
      var m := head + ")";
      assert m[..|userString|] == userString;
      assert m[..|head|] == head;
      PlainMessageLacksTail(userString, code);
      m
  }

  /** The older `APIException`'s message: always all three parts, the result
      string last. */
  function LegacyMessage(userString: string, code: int, resultString: string): (m: string)
    ensures StartsWith(m, userString + " (Error " + IntToString(code) + ": ")
    ensures EndsWith(m, ": " + resultString + ")")
  {
    var head := userString + " (Error " + IntToString(code) + ": ";
    var m := head + resultString + ")";
    assert m[..|head|] == head;
    assert m[|m| - |": " + resultString + ")"|..] == ": " + resultString + ")";
    m
  }

  /** Without the result string the message cannot end in `: <resultString>)`:
      that tail has one colon more than the result string, the message only the
      user string's. */
  lemma PlainMessageLacksTail(u: string, code: int)
    ensures !EndsWith(u + " (Error " + IntToString(code) + ")", ": " + u + ")")
  {
    var m := u + " (Error " + IntToString(code) + ")";
    var tail := ": " + u + ")";
    ColonsInPlainMessage(u, code);
    assert multiset(tail)[':'] == 1 + multiset(u)[':'];
    SuffixCounts(m, tail, ':');
  }

  /** A suffix has no more occurrences of a character than the whole string. */
  lemma SuffixCounts(m: string, tail: string, c: char)
    ensures EndsWith(m, tail) ==> multiset(tail)[c] <= multiset(m)[c]
  {
    if EndsWith(m, tail) {
      var head := m[..|m| - |tail|];
      assert m == head + tail;
    }
  }

  /** The message without the result string has no colon beyond those in the user string. */
  lemma ColonsInPlainMessage(u: string, code: int)
    ensures multiset(u + " (Error " + IntToString(code) + ")")[':'] == multiset(u)[':']
  {
    var c := IntToString(code);
    var mid := " (Error ";
    assert ':' !in c;
    assert ':' !in mid;
    assert multiset(u + mid + c + ")") == multiset(u) + multiset(mid) + multiset(c) + multiset(")");
  }

  /** The older message always carries the result string, so the two revisions
      phrase the same error identically exactly when the strings differ. */
  lemma MessagesAgreeIffDiffer(u: string, code: int, r: string)
    ensures EndsWith(LegacyMessage(u, code, r), ": " + r + ")")
    ensures StartsWith(LegacyMessage(u, code, r), u + " (Error " + IntToString(code) + ": ")
    ensures LegacyMessage(u, code, r) == ServiceMessage(u, code, r) <==> u != r
  {
  }

  /** The result-code check at the end of `_api` in the current revision. */
  function Decode<T>(e: Envelope<T>): (r: Result<Envelope<T>, ServiceError>)
    ensures r.Success? <==> Accepted(e.resultCode)
    ensures r.Success? ==> r.value == e
    ensures r.Failure? ==> r.error.code == e.resultCode
    ensures r.Failure? ==> r.error.message == ServiceMessage(e.userString, e.resultCode, e.resultString)
  {
    if e.resultCode !in [0, 8500] then
      Failure(ServiceError(e.resultCode, ServiceMessage(e.userString, e.resultCode, e.resultString)))
    else
      Success(e)
  }

  /** The same check in the older single-file client. */
  function LegacyDecode<T>(e: Envelope<T>): (r: Result<Envelope<T>, ServiceError>)
    ensures r.Success? <==> Accepted(e.resultCode)
    ensures r.Success? ==> r.value == e
    ensures r.Failure? ==> r.error.code == e.resultCode
    ensures r.Failure? ==> EndsWith(r.error.message, ": " + e.resultString + ")")
  {
    if e.resultCode !in [0, 8500] then
      MessagesAgreeIffDiffer(e.userString, e.resultCode, e.resultString);
      Failure(ServiceError(e.resultCode, LegacyMessage(e.userString, e.resultCode, e.resultString)))
    else
      Success(e)
  }

  /** Both revisions accept and reject the same envelopes and carry the same code. */
  lemma RevisionsAgreeOnOutcome<T>(e: Envelope<T>)
    ensures Decode(e).Success? == LegacyDecode(e).Success?
    ensures Decode(e).Failure? ==> Decode(e).error.code == LegacyDecode(e).error.code
  {
  }
}

=== FILE: filters.dfy ===
/** The selection helpers of the command-line tool (`_filter_devices`,
    `_filter_profiles`) and the loop the acting commands share: act on every
    record found, report every id that was not found.

    The regular-expression test `re.search(pattern, text, re.I)` is a parameter
    `search`, and the resolver calls `api.get_device(args, return_id_if_missing=True)`
    and `api.get_provisioning_profile(...)` enter as the lists they return. */
module Filters {
  import opened Wrappers
  import opened Resources
  import opened Options
  import opened Seqs

  /** `re.search(opts[x], text, re.I)`, truthy or not. */
  type Search = (OptValue, string) -> bool

  /** The list the filters start from: the whole cached listing when no ids are
      given and a filter option (or `include_all`) asks for everything, else the
      resolver's answer for the ids. */
  function DeviceSource(args: seq<string>, includeAll: bool, opts: map<char, OptValue>,
                        all: seq<Device>, resolved: seq<Entry<Device>>): (s: seq<Entry<Device>>)
    ensures |args| == 0 && ('m' in opts || 'u' in opts || includeAll) ==> s == Objs(all)
    ensures |args| > 0 || !('m' in opts || 'u' in opts || includeAll) ==> s == resolved
  {
    if |args| == 0 && ('m' in opts || 'u' in opts || includeAll) then Objs(all) else resolved
  }

  /** The condition a device entry must meet to survive `_filter_devices`: a miss
      always survives, a record must match every filter given. */
  predicate DeviceMatches(opts: map<char, OptValue>, search: Search, e: Entry<Device>) {
    e.Id? ||
      (('m' in opts ==> search(opts['m'], e.value.name))
       && ('u' in opts ==> search(opts['u'], e.value.deviceNumber)))
  }

  /** The entries of `s` that satisfy `DeviceMatches`, in order: the reference
      the filter chain is measured against. */
  function MatchingDevices(s: seq<Entry<Device>>, opts: map<char, OptValue>, search: Search): seq<Entry<Device>> {
    if |s| == 0 then []
    else (if DeviceMatches(opts, search, s[0]) then [s[0]] else []) + MatchingDevices(s[1..], opts, search)
  }

  lemma {:induction false} KeepIsMatchingDevices(s: seq<Entry<Device>>, f: Entry<Device> -> bool,
                                                 opts: map<char, OptValue>, search: Search)
    requires forall e :: f(e) == DeviceMatches(opts, search, e)
    ensures Keep(s, f) == MatchingDevices(s, opts, search)
  {
    if |s| > 0 {
      KeepIsMatchingDevices(s[1..], f, opts, search);
    }
  }

  /** `_filter_devices`: the name filter, then the device-number filter, each a
      list comprehension that keeps misses. */
  function FilterDevices(args: seq<string>, includeAll: bool, opts: map<char, OptValue>,
                         all: seq<Device>, resolved: seq<Entry<Device>>, search: Search): (r: seq<Entry<Device>>)
    ensures IsSubseq(r, DeviceSource(args, includeAll, opts, all, resolved))
    ensures r == MatchingDevices(DeviceSource(args, includeAll, opts, all, resolved), opts, search)
  {
    var source := DeviceSource(args, includeAll, opts, all, resolved);
    var byName := (d: Entry<Device>) => 'm' !in opts || d.Id? || search(opts['m'], d.value.name);
    var byNumber := (d: Entry<Device>) => 'u' !in opts || d.Id? || search(opts['u'], d.value.deviceNumber);
    var named := if 'm' in opts then Keep(source, byName) else source;
    var numbered := if 'u' in opts then Keep(named, byNumber) else named;
    var both := (d: Entry<Device>) => DeviceMatches(opts, search, d);
    KeepOptional(source, byName, 'm' in opts, byName);
    KeepOptional(named, byNumber, 'u' in opts, byNumber);
    KeepThen(source, byName, byNumber, both);
    KeepIsMatchingDevices(source, both, opts, search);
    numbered
  }

  /** The device filters never drop a miss: every id the resolver could not find
      is still reported, in order. Every record kept matches every filter. */
  lemma {:induction false} DeviceFiltersKeepMisses(s: seq<Entry<Device>>, opts: map<char, OptValue>, search: Search)
    ensures Missing(MatchingDevices(s, opts, search)) == Missing(s)
    ensures var r := MatchingDevices(s, opts, search);
            forall i :: 0 <= i < |r| ==> DeviceMatches(opts, search, r[i])
    ensures forall i :: 0 <= i < |s| && DeviceMatches(opts, search, s[i]) ==> s[i] in MatchingDevices(s, opts, search)
  {
    if |s| > 0 {
      DeviceFiltersKeepMisses(s[1..], opts, search);
      var head := if DeviceMatches(opts, search, s[0]) then [s[0]] else [];
      var r := MatchingDevices(s, opts, search);
      assert r == head + MatchingDevices(s[1..], opts, search);
      if head == [] {
        assert r == MatchingDevices(s[1..], opts, search);
      } else {
        assert r[1..] == MatchingDevices(s[1..], opts, search);
      }
      forall i | 0 <= i < |s| && DeviceMatches(opts, search, s[i])
        ensures s[i] in r
      {
        if i > 0 {
          assert s[1..][i - 1] == s[i];
        }
      }
    }
  }

  /** The list `_filter_profiles` starts from; `-t` and `-i` also ask for everything. */
  function ProfileSource(args: seq<string>, includeAll: bool, opts: map<char, OptValue>,
                         all: seq<Profile>, resolved: seq<Entry<Profile>>): (s: seq<Entry<Profile>>)
    ensures |args| == 0 && ('m' in opts || 'i' in opts || 't' in opts || includeAll) ==> s == Objs(all)
    ensures |args| > 0 || !('m' in opts || 'i' in opts || 't' in opts || includeAll) ==> s == resolved
  {
    if |args| == 0 && ('m' in opts || 'i' in opts || 't' in opts || includeAll) then Objs(all) else resolved
  }

  /** The condition a profile entry must meet to survive `_filter_profiles` as
      intended: a record matches the name pattern, has the given app identifier
      (a bare `-i` is `True`, equal to no identifier), and is of the kind `-t` names. */
  predicate ProfileMatches(opts: map<char, OptValue>, search: Search, e: Entry<Profile>) {
    e.Id? ||
      (('m' in opts ==> search(opts['m'], e.value.name))
       && ('i' in opts ==> opts['i'] == Text(e.value.appId.identifier))
       && ('t' in opts ==> opts['t'] == Text(KindName(ProfileType(e.value)))))
  }

  /** Why `_filter_profiles` can stop: `api.profile_type(opts['t'])` indexes the
      option's string (or `True`) with `'type'`, a `TypeError`. */
  datatype FilterError = TypeFilterOnString(value: OptValue)

  /** The three comprehensions of `_filter_profiles` as they are written: with
      `-t` the type of the option value is looked up before any profile is read,
      and the lookup fails. */
  function FilterProfilesAsWritten(args: seq<string>, includeAll: bool, opts: map<char, OptValue>,
                                   all: seq<Profile>, resolved: seq<Entry<Profile>>, search: Search)
    : (r: Result<seq<Entry<Profile>>, FilterError>)
    ensures r.Failure? <==> 't' in opts
    ensures r.Success? ==> r.value == FilterProfiles(args, includeAll, opts, all, resolved, search)
  {
    if 't' in opts then Failure(TypeFilterOnString(opts['t']))
    else Success(FilterProfiles(args, includeAll, opts, all, resolved, search))
  }

  function MatchingProfiles(s: seq<Entry<Profile>>, opts: map<char, OptValue>, search: Search): seq<Entry<Profile>> {
    if |s| == 0 then []
    else (if ProfileMatches(opts, search, s[0]) then [s[0]] else []) + MatchingProfiles(s[1..], opts, search)
  }

  lemma {:induction false} KeepIsMatchingProfiles(s: seq<Entry<Profile>>, f: Entry<Profile> -> bool,
                                                  opts: map<char, OptValue>, search: Search)
    requires forall e :: f(e) == ProfileMatches(opts, search, e)
    ensures Keep(s, f) == MatchingProfiles(s, opts, search)
  {
    if |s| > 0 {
      KeepIsMatchingProfiles(s[1..], f, opts, search);
    }
  }

  /** The three comprehensions of `_filter_profiles`, one per option; a miss passes each. */
  predicate NameFilter(opts: map<char, OptValue>, search: Search, e: Entry<Profile>) {
    'm' !in opts || e.Id? || search(opts['m'], e.value.name)
  }

  predicate AppFilter(opts: map<char, OptValue>, e: Entry<Profile>) {
    'i' !in opts || e.Id? || opts['i'] == Text(e.value.appId.identifier)
  }

  predicate KindFilter(opts: map<char, OptValue>, e: Entry<Profile>) {
    't' !in opts || e.Id? || opts['t'] == Text(KindName(ProfileType(e.value)))
  }

  /** `_filter_profiles` with the `-t` filter comparing the option with each
      profile's `profile_type` string. */
  function FilterProfiles(args: seq<string>, includeAll: bool, opts: map<char, OptValue>,
                          all: seq<Profile>, resolved: seq<Entry<Profile>>, search: Search): (r: seq<Entry<Profile>>)
    ensures IsSubseq(r, ProfileSource(args, includeAll, opts, all, resolved))
    ensures r == MatchingProfiles(ProfileSource(args, includeAll, opts, all, resolved), opts, search)
  {
    var source := ProfileSource(args, includeAll, opts, all, resolved);
    var byName := (p: Entry<Profile>) => NameFilter(opts, search, p);
    var byApp := (p: Entry<Profile>) => AppFilter(opts, p);
    var byKind := (p: Entry<Profile>) => KindFilter(opts, p);
    var named := if 'm' in opts then Keep(source, byName) else source;
    var identified := if 'i' in opts then Keep(named, byApp) else named;
    var typed := if 't' in opts then Keep(identified, byKind) else identified;
    var nameApp := (p: Entry<Profile>) => byName(p) && byApp(p);
    var every := (p: Entry<Profile>) => ProfileMatches(opts, search, p);
    assert forall p :: every(p) == (nameApp(p) && byKind(p));
    KeepOptional(source, byName, 'm' in opts, byName);
    KeepOptional(named, byApp, 'i' in opts, byApp);
    KeepThen(source, byName, byApp, nameApp);
    KeepOptional(identified, byKind, 't' in opts, byKind);
    KeepThen(source, nameApp, byKind, every);
    KeepIsMatchingProfiles(source, every, opts, search);
    typed
  }

  /** The profile filters never drop a miss, and keep exactly the matching records. */
  lemma {:induction false} ProfileFiltersKeepMisses(s: seq<Entry<Profile>>, opts: map<char, OptValue>, search: Search)
    ensures Missing(MatchingProfiles(s, opts, search)) == Missing(s)
    ensures var r := MatchingProfiles(s, opts, search);
            forall i :: 0 <= i < |r| ==> ProfileMatches(opts, search, r[i])
    ensures forall i :: 0 <= i < |s| && ProfileMatches(opts, search, s[i]) ==> s[i] in MatchingProfiles(s, opts, search)
  {
    if |s| > 0 {
      ProfileFiltersKeepMisses(s[1..], opts, search);
      var head := if ProfileMatches(opts, search, s[0]) then [s[0]] else [];
      var r := MatchingProfiles(s, opts, search);
      assert r == head + MatchingProfiles(s[1..], opts, search);
      if head == [] {
        assert r == MatchingProfiles(s[1..], opts, search);
      } else {
        assert r[1..] == MatchingProfiles(s[1..], opts, search);
      }
      forall i | 0 <= i < |s| && ProfileMatches(opts, search, s[i])
        ensures s[i] in r
      {
        if i > 0 {
          assert s[1..][i - 1] == s[i];
        }
      }
    }
  }

  /** With the comparison the `-t` option evidently intends, `-t <kind>` keeps
      exactly the records of that kind (and every miss). */
  lemma TypeFilterSelectsKind(s: seq<Entry<Profile>>, k: ProfileKind, search: Search)
    ensures var r := MatchingProfiles(s, map['t' := Text(KindName(k))], search);
            && (forall i :: 0 <= i < |r| && r[i].Obj? ==> ProfileType(r[i].value) == k)
            && (forall i :: 0 <= i < |s| && s[i].Obj? && ProfileType(s[i].value) == k ==> s[i] in r)
  {
    var opts := map['t' := Text(KindName(k))];
    ProfileFiltersKeepMisses(s, opts, search);
    var r := MatchingProfiles(s, opts, search);
    forall i | 0 <= i < |r| && r[i].Obj?
      ensures ProfileType(r[i].value) == k
    {
      assert ProfileMatches(opts, search, r[i]);
      KindNameInjective(ProfileType(r[i].value), k);
    }
  }

  /** With no filter option and no ids, `list*` shows every record, in order. */
  lemma {:induction false} ListingShowsEverything(opts: map<char, OptValue>, all: seq<Profile>, search: Search)
    requires 'm' !in opts && 'i' !in opts && 't' !in opts
    ensures MatchingProfiles(Objs(all), opts, search) == Objs(all)
  {
    if |all| > 0 {
      assert Objs(all)[1..] == Objs(all[1..]);
      ListingShowsEverything(opts, all[1..], search);
    }
  }

  /** The loop of `cmd_delete_device`, `cmd_enable_device` and
      `cmd_delete_profile` (and the exit status of `cmd_list_devices` and
      `cmd_list_profiles`): every record is acted on unless `-n` is given, every
      miss is reported and makes the exit status 1. */
  method ActOnFound<T>(entries: seq<Entry<T>>, dryRun: bool) returns (rc: int, calls: seq<T>)
    ensures rc == 0 || rc == 1
    ensures rc == 1 <==> exists i :: 0 <= i < |entries| && entries[i].Id?
    ensures dryRun ==> calls == []
    ensures !dryRun ==> calls == Found(entries)
  {
    rc := 0;
    calls := [];
    var i := 0;
    while i < |entries|
      invariant 0 <= i <= |entries|
      invariant rc == 0 || rc == 1
      invariant rc == 1 <==> exists j :: 0 <= j < i && entries[j].Id?
      invariant calls == (if dryRun then [] else Found(entries[..i]))
    {
      FoundSnoc(entries[..i], entries[i]);
      assert entries[..i + 1] == entries[..i] + [entries[i]];
      match entries[i] {
        case Obj(v) =>
          if !dryRun {
            calls := calls + [v];
          }
        case Id(_) =>
          rc := 1;
      }
      i := i + 1;
    }
    assert entries[..i] == entries;
  }
}

=== FILE: legacy.dfy ===
/** The older single-file script `portal.py`: its two profile commands
    (`update-profiles` and `download-profiles`), the test-profile listing it falls
    back to, and how their rules relate to the newer package's. Its copy of the
    API (caching, `list_cert_requests`, the update form, the query keys) is the
    same code as the package's and shares its model. */
module Legacy {
  import opened Wrappers
  import opened Resources
  import opened Text
  import opened Options
  import opened Seqs
  import opened ProfileForm
  import opened Regenerate

  /** The script's commands, chosen by the first positional argument. */
  datatype ScriptCommand = UpdateProfiles | DownloadProfiles | ListTestProfiles

  /** `args[0]`: no argument is an `IndexError`; any word other than the two
      command names lists the test profiles. */
  function CommandOf(args: seq<string>): (r: Option<ScriptCommand>)
    ensures r.None? <==> |args| == 0
    ensures r == Some(UpdateProfiles) <==> |args| > 0 && args[0] == "update-profiles"
    ensures r == Some(DownloadProfiles) <==> |args| > 0 && args[0] == "download-profiles"
  {
    if |args| == 0 then None
    else if args[0] == "update-profiles" then Some(UpdateProfiles)
    else if args[0] == "download-profiles" then Some(DownloadProfiles)
    else Some(ListTestProfiles)
  }

  /** `-a` restricts both commands to one app identifier (a bare `-a` is `True`,
      which no identifier equals). */
  predicate ForApp(opts: map<char, OptValue>, p: Profile) {
    'a' !in opts || opts['a'] == Text(p.appId.identifier)
  }

  /** The three flags of `download-profiles`. */
  datatype Flags = Flags(isDev: bool, isAdhoc: bool, isAppstore: bool)

  function Classify(p: Profile): (f: Flags)
    ensures (f.isDev && !f.isAdhoc && !f.isAppstore) || (!f.isDev && f.isAdhoc && !f.isAppstore)
            || (!f.isDev && !f.isAdhoc && f.isAppstore)
    ensures f.isDev <==> p.declaredType == "Development"
    ensures f.isAdhoc <==> p.declaredType != "Development" && p.deviceCount > 0
  {
    var isDev := p.declaredType == "Development";
    var isAdhoc := !isDev && p.deviceCount > 0;
    Flags(isDev, isAdhoc, !isDev && !isAdhoc)
  }

  function KindOf(f: Flags): ProfileKind {
    if f.isDev then Development else if f.isAdhoc then AdHoc else AppStore
  }

  /** The script tests `deviceCount > 0` where the package tests truthiness: the
      two classifications agree exactly when the count is not negative (or the
      type alone decides). */
  lemma ClassifyAgreesWithProfileType(p: Profile)
    ensures KindOf(Classify(p)) == ProfileType(p) <==> p.declaredType == "Development" || p.deviceCount >= 0
  {
  }

  const Suffix := ".mobileprovision"

  /** The file a profile is downloaded to: `<kind>.mobileprovision`, inside a
      directory named after the app identifier unless that is the wildcard `*`. */
  function DownloadName(p: Profile): (name: string)
    ensures EndsWith(name, KindName(KindOf(Classify(p))) + Suffix)
    ensures p.appId.identifier == "*" ==> name == KindName(KindOf(Classify(p))) + Suffix
    ensures p.appId.identifier != "*" ==> StartsWith(name, p.appId.identifier + "/")
    ensures p.appId.identifier != "*" ==> name == p.appId.identifier + "/" + KindName(KindOf(Classify(p))) + Suffix
  {
    var file := KindName(KindOf(Classify(p))) + Suffix;
    if p.appId.identifier == "*" then file
    else
      var name := p.appId.identifier + "/" + file;
      assert name[..|p.appId.identifier + "/"|] == p.appId.identifier + "/";
      assert name[|name| - |file|..] == file;
      name
  }

  /** Helper for `SameAppSameFileIffSameKind`: the kind names differ in length. */
  lemma KindNameLengths(k: ProfileKind)
    ensures |KindName(k)| == (match k case Development => 11 case AdHoc => 5 case AppStore => 8)
  {
  }

  /** Two profiles of the same app are written to the same file iff they are of
      the same kind: a second ad hoc profile for an app overwrites the first. */
  lemma SameAppSameFileIffSameKind(p: Profile, q: Profile)
    requires p.appId.identifier == q.appId.identifier
    ensures DownloadName(p) == DownloadName(q) <==> KindOf(Classify(p)) == KindOf(Classify(q))
  {
    var kp := KindOf(Classify(p));
    var kq := KindOf(Classify(q));
    KindNameLengths(kp);
    KindNameLengths(kq);
    if kp != kq {
      assert |DownloadName(p)| != |DownloadName(q)|;
    }
  }

  /** The profiles both commands act on: those for the chosen app, in their
      listed order, each as often as it is listed. */
  function ForChosenApp(opts: map<char, OptValue>, profiles: seq<Profile>): (r: seq<Profile>)
    ensures IsSubseq(r, profiles)
    ensures forall i :: 0 <= i < |r| ==> ForApp(opts, r[i])
    ensures forall x :: multiset(r)[x] == (if ForApp(opts, x) then multiset(profiles)[x] else 0)
    ensures 'a' !in opts ==> r == profiles
  {
    var wanted := (p: Profile) => ForApp(opts, p);
    KeepCounts(profiles, wanted);
    if 'a' in opts then Keep(profiles, wanted)
    else
      KeepEverything(profiles, wanted);
      Keep(profiles, wanted)
  }

  /** A listed profile for the chosen app is among the chosen ones. */
  lemma ChosenIfForApp(opts: map<char, OptValue>, profiles: seq<Profile>, i: int)
    requires 0 <= i < |profiles| && ForApp(opts, profiles[i])
    ensures profiles[i] in ForChosenApp(opts, profiles)
  {
    assert multiset(ForChosenApp(opts, profiles))[profiles[i]] > 0;
  }

  /** Every listed profile for the chosen app has its download in a plan that
      pairs each chosen profile with its file name. */
  lemma DownloadsCoverChosen(opts: map<char, OptValue>, profiles: seq<Profile>, r: seq<(Profile, string)>)
    requires var chosen := ForChosenApp(opts, profiles);
             |r| == |chosen| && forall i :: 0 <= i < |r| ==> r[i] == (chosen[i], DownloadName(chosen[i]))
    ensures forall i :: 0 <= i < |profiles| && ForApp(opts, profiles[i]) ==> (profiles[i], DownloadName(profiles[i])) in r
  {
    var chosen := ForChosenApp(opts, profiles);
    forall i | 0 <= i < |profiles| && ForApp(opts, profiles[i])
      ensures (profiles[i], DownloadName(profiles[i])) in r
    {
      ChosenIfForApp(opts, profiles, i);
      var j :| 0 <= j < |chosen| && chosen[j] == profiles[i];
      assert r[j] == (profiles[i], DownloadName(profiles[i]));
    }
  }

  /** `download-profiles`: one download per profile for the chosen app, in the
      order of the listing, each to its file name. */
  function DownloadPlan(opts: map<char, OptValue>, profiles: seq<Profile>): (r: seq<(Profile, string)>)
    ensures var chosen := ForChosenApp(opts, profiles);
            |r| == |chosen| && forall i :: 0 <= i < |r| ==> r[i] == (chosen[i], DownloadName(chosen[i]))
    ensures forall i :: 0 <= i < |profiles| && ForApp(opts, profiles[i]) ==> (profiles[i], DownloadName(profiles[i])) in r
    ensures 'a' !in opts ==> |r| == |profiles|
  {
    var chosen := ForChosenApp(opts, profiles);
    var r := seq(|chosen|, i requires 0 <= i < |chosen| => (chosen[i], DownloadName(chosen[i])));
    DownloadsCoverChosen(opts, profiles, r);
    r
  }

  /** The device and certificate choice of `update-profiles`. */
  function LegacyDevices(p: Profile, devices: seq<Device>): (devs: seq<Device>)
    ensures devs == devices || devs == []
    ensures devs == devices <==>
              (devices == [] || (p.deviceCount != 0 && !Contains(p.name, "DISTRO") && !Contains(p.name, "AppStore")))
  {
    if p.deviceCount != 0 && !Contains(p.name, "DISTRO") && !Contains(p.name, "AppStore") then devices else []
  }

  function LegacyCertificates(p: Profile, devCerts: seq<CertRequest>, distCerts: seq<CertRequest>): (certs: seq<CertRequest>)
    ensures p.declaredType == "Development" ==> certs == devCerts
    ensures p.declaredType != "Development" ==> certs == distCerts
  {
    if p.declaredType == "Development" then devCerts else distCerts
  }

  /** Against the package's rule (with `profile_type_name` meaning `profile_type`):
      both give the development certificates exactly to development profiles,
      and they choose the same devices unless the name carries a marker or a
      development profile holds no device (the script sends none, the package
      all of them). */
  lemma RevisionsAgreeOnChoice(ctx: Context, p: Profile)
    requires ctx.typeName(p) == KindName(ProfileType(p))
    ensures LegacyCertificates(p, ctx.devCerts, ctx.distCerts)
            == (if ctx.typeName(p) == "development" then ctx.devCerts else ctx.distCerts)
    ensures !Contains(p.name, "DISTRO") && !Contains(p.name, "AppStore")
            && (p.declaredType != "Development" || p.deviceCount != 0)
            ==> LegacyDevices(p, ctx.devices) == DevicesFor(ctx, p)
    ensures p.declaredType == "Development" && p.deviceCount == 0 && ctx.devices != []
            ==> LegacyDevices(p, ctx.devices) != DevicesFor(ctx, p)
  {
    KindNameInjective(ProfileType(p), Development);
    KindNameInjective(ProfileType(p), AppStore);
  }

  /** The `update_provisioning_profile(profile, device_ids=devs, certificate_ids=certs)`
      call of `update-profiles`. */
  function LegacyUpdate(p: Profile, devices: seq<Device>, devCerts: seq<CertRequest>, distCerts: seq<CertRequest>): Update {
    Update(p, LegacyDevices(p, devices), LegacyCertificates(p, devCerts, distCerts))
  }

  /** Every listed profile for the chosen app has its call in a plan that
      makes the call for each chosen profile. */
  lemma UpdatesCoverChosen(opts: map<char, OptValue>, profiles: seq<Profile>, r: seq<Update>, devices: seq<Device>,
                           devCerts: seq<CertRequest>, distCerts: seq<CertRequest>)
    requires var chosen := ForChosenApp(opts, profiles);
             |r| == |chosen| && forall i :: 0 <= i < |r| ==> r[i] == LegacyUpdate(chosen[i], devices, devCerts, distCerts)
    ensures forall i :: 0 <= i < |profiles| && ForApp(opts, profiles[i]) ==>
              LegacyUpdate(profiles[i], devices, devCerts, distCerts) in r
  {
    var chosen := ForChosenApp(opts, profiles);
    forall i | 0 <= i < |profiles| && ForApp(opts, profiles[i])
      ensures LegacyUpdate(profiles[i], devices, devCerts, distCerts) in r
    {
      ChosenIfForApp(opts, profiles, i);
      var j :| 0 <= j < |chosen| && chosen[j] == profiles[i];
      assert r[j] == LegacyUpdate(profiles[i], devices, devCerts, distCerts);
    }
  }

  /** `update-profiles`: one update call per profile for the chosen app,
      unconditionally and in the order of the listing, with the chosen devices
      and certificates. */
  function UpdatePlan(opts: map<char, OptValue>, profiles: seq<Profile>, devices: seq<Device>,
                      devCerts: seq<CertRequest>, distCerts: seq<CertRequest>): (r: seq<Update>)
    ensures var chosen := ForChosenApp(opts, profiles);
            |r| == |chosen| && forall i :: 0 <= i < |r| ==> r[i] == LegacyUpdate(chosen[i], devices, devCerts, distCerts)
    ensures 'a' !in opts ==> |r| == |profiles|
    ensures forall i :: 0 <= i < |profiles| && ForApp(opts, profiles[i]) ==>
              LegacyUpdate(profiles[i], devices, devCerts, distCerts) in r
  {
    var chosen := ForChosenApp(opts, profiles);
    var r := seq(|chosen|, i requires 0 <= i < |chosen| => LegacyUpdate(chosen[i], devices, devCerts, distCerts));
    UpdatesCoverChosen(opts, profiles, r, devices, devCerts, distCerts);
    r
  }

  /** `update-profiles` against the service: `_api` raises `APIException` on a
      rejected update and `__main__` does not catch it, so the calls the script
      makes are the updates of the first chosen profiles, in order, and all of
      them when the service accepts every one. */
  lemma ScriptSendsChosenInOrder(opts: map<char, OptValue>, profiles: seq<Profile>, devices: seq<Device>,
                                 devCerts: seq<CertRequest>, distCerts: seq<CertRequest>, accepted: Update -> bool)
    ensures var chosen := ForChosenApp(opts, profiles);
            var run := Send(UpdatePlan(opts, profiles, devices, devCerts, distCerts), accepted);
            && |run.updates| <= |chosen|
            && (forall i :: 0 <= i < |run.updates| ==>
                  run.updates[i] == LegacyUpdate(chosen[i], devices, devCerts, distCerts))
            && (run.error.None? ==> |run.updates| == |chosen|)
  {
    SentInOrder(UpdatePlan(opts, profiles, devices, devCerts, distCerts), accepted);
  }

  /** The script ends early exactly when the service rejects the update of some
      chosen profile, and then at the first such profile. */
  lemma ScriptStopsAtRejection(opts: map<char, OptValue>, profiles: seq<Profile>, devices: seq<Device>,
                               devCerts: seq<CertRequest>, distCerts: seq<CertRequest>, accepted: Update -> bool)
    ensures var chosen := ForChosenApp(opts, profiles);
            var run := Send(UpdatePlan(opts, profiles, devices, devCerts, distCerts), accepted);
            && (run.error.None? <==>
                  forall i :: 0 <= i < |chosen| ==> accepted(LegacyUpdate(chosen[i], devices, devCerts, distCerts)))
            && (run.error.Some? ==>
                  && 0 < |run.updates| <= |chosen|
                  && !accepted(LegacyUpdate(chosen[|run.updates| - 1], devices, devCerts, distCerts))
                  && forall i :: 0 <= i < |run.updates| - 1 ==>
                       accepted(LegacyUpdate(chosen[i], devices, devCerts, distCerts)))
  {
    var chosen := ForChosenApp(opts, profiles);
    var plan := UpdatePlan(opts, profiles, devices, devCerts, distCerts);
    var run := Send(plan, accepted);
    ScriptSendsChosenInOrder(opts, profiles, devices, devCerts, distCerts, accepted);
    assert forall i :: 0 <= i < |chosen| ==> plan[i] == LegacyUpdate(chosen[i], devices, devCerts, distCerts);
  }

  /** The fallback listing: the profiles whose name starts with `Test`, in order,
      each as often as it is listed. */
  function TestProfiles(profiles: seq<Profile>): (r: seq<Profile>)
    ensures IsSubseq(r, profiles)
    ensures forall i :: 0 <= i < |r| ==> StartsWith(r[i].name, "Test")
    ensures forall x :: multiset(r)[x] == (if StartsWith(x.name, "Test") then multiset(profiles)[x] else 0)
  {
    var isTest := (p: Profile) => StartsWith(p.name, "Test");
    KeepCounts(profiles, isTest);
    Keep(profiles, isTest)
  }
}

=== FILE: options.dfy ===
/** Option parsing as `main` does it: Python 2's `getopt.getopt(args, spec)` with
    short options only (the tool declares no long options), then
    `dict((o[1:], a or True) for o, a in optlist)`. */
module Options {
  import opened Wrappers
  import opened Text

  datatype GetoptError =
    | NotRecognized(option: string)   // `option -x not recognized`, or any `--name`
    | RequiresArgument(opt: char)     // `option -x requires argument`

  /** Parsed options, in command-line order, each with its argument (`""` for a flag). */
  type OptList = seq<(char, string)>

  /** `i` is the first position of `opt` in `spec`. */
  predicate FirstAt(spec: string, opt: char, i: int) {
    0 <= i < |spec| && spec[i] == opt && forall k :: 0 <= k < i ==> spec[k] != opt
  }

  /** `opt` is declared in `spec` with a trailing `:` at its first occurrence. */
  ghost predicate TakesArgument(spec: string, opt: char) {
    exists i :: FirstAt(spec, opt, i) && i + 1 < |spec| && spec[i + 1] == ':'
  }

  /** `short_has_arg`: scan `spec` for `opt`, never matching the `:` marks. */
  function ShortHasArg(opt: char, spec: string): (r: Result<bool, GetoptError>)
    ensures r.Failure? <==> opt == ':' || opt !in spec
    ensures r.Failure? ==> r.error == NotRecognized([opt])
    ensures r.Success? ==> (r.value <==> TakesArgument(spec, opt))
  {
    ShortHasArgFrom(opt, spec, 0)
  }

  function ShortHasArgFrom(opt: char, spec: string, i: nat): (r: Result<bool, GetoptError>)
    requires i <= |spec|
    requires opt != ':' ==> forall k :: 0 <= k < i ==> spec[k] != opt
    ensures r.Failure? <==> opt == ':' || opt !in spec[i..]
    ensures r.Failure? ==> r.error == NotRecognized([opt])
    ensures r.Success? ==> (r.value <==> TakesArgument(spec, opt))
    decreases |spec| - i
  {
    if i == |spec| then Failure(NotRecognized([opt]))
    else if opt == spec[i] && opt != ':' then
      assert FirstAt(spec, opt, i);
      Success(i + 1 < |spec| && spec[i + 1] == ':')
    else
      assert spec[i..] == [spec[i]] + spec[i + 1..];
      ShortHasArgFrom(opt, spec, i + 1)
  }

  /** The options of one parsed list are all declared, and flags carry `""`. */
  ghost predicate WellFormed(spec: string, opts: OptList) {
    forall i :: 0 <= i < |opts| ==>
      && opts[i].0 != ':' && opts[i].0 in spec
      && (!TakesArgument(spec, opts[i].0) ==> opts[i].1 == "")
  }

  predicate IsSuffix<T(==)>(a: seq<T>, b: seq<T>) {
    |a| <= |b| && a == b[|b| - |a|..]
  }

  /** `do_shorts`: the letters of one `-abc` cluster. An option that takes an
      argument swallows the rest of the cluster, or else the next word. */
  function DoShorts(cluster: string, spec: string, args: seq<string>): (r: Result<(OptList, seq<string>), GetoptError>)
    ensures r.Success? ==> IsSuffix(r.value.1, args) && WellFormed(spec, r.value.0)
    decreases |cluster|
  {
    if |cluster| == 0 then Success(([], args))
    else
      var opt := cluster[0];
      var hasArg :- ShortHasArg(opt, spec);
      if hasArg then
        if |cluster| > 1 then Success(([(opt, cluster[1..])], args))
        else if |args| == 0 then Failure(RequiresArgument(opt))
        else Success(([(opt, args[0])], args[1..]))
      else
        var more :- DoShorts(cluster[1..], spec, args);
        Success(([(opt, "")] + more.0, more.1))
  }

  /** `getopt.getopt(args, spec)`: options are read until the first word that does
      not start with `-`, the word `-` itself, or `--` (which is dropped). */
  function Getopt(args: seq<string>, spec: string): (r: Result<(OptList, seq<string>), GetoptError>)
    ensures r.Success? ==> IsSuffix(r.value.1, args) && WellFormed(spec, r.value.0)
    decreases |args|
  {
    if |args| == 0 || !StartsWith(args[0], "-") || args[0] == "-" then Success(([], args))
    else if args[0] == "--" then Success(([], args[1..]))
    else if StartsWith(args[0], "--") then Failure(NotRecognized(UpTo(args[0][2..], '=')))
    else
      var first :- DoShorts(args[0][1..], spec, args[1..]);
      var rest :- Getopt(first.1, spec);
      WellFormedAppend(spec, first.0, rest.0);
      SuffixTransitive(rest.1, first.1, args[1..]);
      SuffixTransitive(rest.1, args[1..], args);
      Success((first.0 + rest.0, rest.1))
  }

  /** The part of `s` before the first `c` (all of `s` when there is none): how
      `getopt` separates a long option's name from its `=value`. */
  function UpTo(s: string, c: char): string
  {
    if |s| == 0 || s[0] == c then [] else [s[0]] + UpTo(s[1..], c)
  }

  /** `UpTo` keeps the longest prefix free of `c`: the result is a prefix without
      `c`, followed in `s` by `c` or by nothing. */
  lemma {:induction false} UpToSplits(s: string, c: char)
    ensures var r := UpTo(s, c); |r| <= |s| && r == s[..|r|] && c !in r && (|r| < |s| ==> s[|r|] == c)
    ensures c !in s ==> UpTo(s, c) == s
  {
    if |s| > 0 && s[0] != c {
      UpToSplits(s[1..], c);
      var r := UpTo(s[1..], c);
      assert [s[0]] + r == s[..|r| + 1];
      if c !in s { assert forall x :: x in s[1..] ==> x in s; }
    }
  }

  lemma WellFormedAppend(spec: string, a: OptList, b: OptList)
    requires WellFormed(spec, a) && WellFormed(spec, b)
    ensures WellFormed(spec, a + b)
  {
    forall i | 0 <= i < |a + b|
      ensures (a + b)[i] == if i < |a| then a[i] else b[i - |a|]
    {
    }
  }

  lemma SuffixTransitive<T>(a: seq<T>, b: seq<T>, c: seq<T>)
    requires IsSuffix(a, b) && IsSuffix(b, c)
    ensures IsSuffix(a, c)
  {
    assert c[|c| - |b|..][|b| - |a|..] == c[|c| - |a|..];
  }

  /** The words that spell one option: `-c`, then its argument as a word of its
      own when the spec says it takes one. */
  function Spell(spec: string, c: char, a: string): seq<string> {
    if ShortHasArg(c, spec) == Success(true) then ["-" + [c], a] else ["-" + [c]]
  }

  /** The words of a command line that spell `opts` one option at a time. */
  function Render(spec: string, opts: OptList): seq<string> {
    if |opts| == 0 then [] else Spell(spec, opts[0].0, opts[0].1) + Render(spec, opts[1..])
  }

  /** A word after which `getopt` reads no further options (it is kept). */
  predicate EndsOptions(args: seq<string>) {
    |args| == 0 || !StartsWith(args[0], "-") || args[0] == "-"
  }

  /** The cluster of one declared letter: its argument is the next word, or it
      is a flag. */
  lemma SingleLetterCluster(spec: string, c: char, a: string, after: seq<string>)
    requires c != ':' && c in spec
    ensures ShortHasArg(c, spec) == Success(true) ==>
              DoShorts([c], spec, [a] + after) == Success(([(c, a)], after))
    ensures ShortHasArg(c, spec) != Success(true) ==>
              DoShorts([c], spec, after) == Success(([(c, "")], after))
  {
    assert [c][0] == c && |[c]| == 1;
    if ShortHasArg(c, spec) != Success(true) {
      assert ShortHasArg(c, spec) == Success(false);
      assert [c][1..] == [];
      assert DoShorts([], spec, after) == Success(([], after));
      assert [(c, "")] + [] == [(c, "")];
    } else {
      assert ([a] + after)[0] == a && ([a] + after)[1..] == after;
    }
  }

  /** Parsing one spelled option in front of any words. */
  lemma SpelledOption(spec: string, c: char, a: string, after: seq<string>)
    requires c != ':' && c != '-' && c in spec
    requires ShortHasArg(c, spec) != Success(true) ==> a == ""
    ensures var g := Getopt(after, spec);
            Getopt(Spell(spec, c, a) + after, spec)
              == if g.Success? then Success(([(c, a)] + g.value.0, g.value.1)) else g
  {
    var word := "-" + [c];
    assert word[..1] == "-" && word[1] == c && word[1..] == [c];
    assert word != "--" && !StartsWith(word, "--");
    SingleLetterCluster(spec, c, a, after);
    var args := Spell(spec, c, a) + after;
    assert args[0] == word;
    if ShortHasArg(c, spec) == Success(true) {
      assert args[1..] == [a] + after;
    } else {
      assert args[1..] == after;
    }
  }

  /** Parsing gives back any well-formed option list spelled out word by word,
      together with the positional words after it. (`-` itself is not an option
      letter: `--` would end the options instead.) */
  lemma {:induction false} GetoptRoundTrip(spec: string, opts: OptList, rest: seq<string>)
    requires WellFormed(spec, opts)
    requires forall i :: 0 <= i < |opts| ==> opts[i].0 != '-'
    requires EndsOptions(rest)
    ensures Getopt(Render(spec, opts) + rest, spec) == Success((opts, rest))
  {
    if |opts| > 0 {
      var (c, a) := opts[0];
      var tail := opts[1..];
      assert WellFormed(spec, tail) by {
        assert forall i :: 0 <= i < |tail| ==> tail[i] == opts[i + 1];
      }
      GetoptRoundTrip(spec, tail, rest);
      var after := Render(spec, tail) + rest;
      assert Render(spec, opts) + rest == Spell(spec, c, a) + after;
      SpelledOption(spec, c, a, after);
      assert [(c, a)] + tail == opts;
    }
  }

  /** A letter the spec does not declare (or `:`) is refused by name. */
  lemma UndeclaredOptionRejected(c: char, spec: string, rest: seq<string>)
    requires c != '-' && (c == ':' || c !in spec)
    ensures Getopt(["-" + [c]] + rest, spec) == Failure(NotRecognized([c]))
  {
    var word := "-" + [c];
    assert word[..1] == "-" && word[1] == c && word[1..] == [c];
    assert (["-" + [c]] + rest)[0] == word;
  }

  /** An option that takes an argument, last on the line, is refused. */
  lemma MissingArgumentRejected(c: char, spec: string)
    requires c != '-' && ShortHasArg(c, spec) == Success(true)
    ensures Getopt(["-" + [c]], spec) == Failure(RequiresArgument(c))
  {
    var word := "-" + [c];
    assert word[..1] == "-" && word[1] == c && word[1..] == [c];
  }

  /** Long options are never declared, so any `--name` is refused. */
  lemma LongOptionRejected(w: string, spec: string, rest: seq<string>)
    requires |w| > 2 && StartsWith(w, "--")
    ensures Getopt([w] + rest, spec) == Failure(NotRecognized(UpTo(w[2..], '=')))
    ensures '=' !in w ==> Getopt([w] + rest, spec) == Failure(NotRecognized(w[2..]))
  {
    assert w[..1] == "-";
    assert ([w] + rest)[0] == w;
    if '=' !in w {
      assert forall x :: x in w[2..] ==> x in w;
      UpToSplits(w[2..], '=');
    }
  }

  /** An option's entry in the dictionary: `a or True`. */
  datatype OptValue = Flag | Text(text: string)

  function ValueOf(arg: string): (v: OptValue)
    ensures v.Flag? <==> arg == ""
    ensures v.Text? ==> v.text == arg
  {
    if arg == "" then Flag else Text(arg)
  }

  /** `i` is the last position of option `k` in the list. */
  predicate LastAt(opts: OptList, k: char, i: int) {
    0 <= i < |opts| && opts[i].0 == k && forall j :: i < j < |opts| ==> opts[j].0 != k
  }

  /** `dict((o[1:], a or True) for o, a in optlist)`: a repeated option keeps its last value. */
  function OptionDict(opts: OptList): (d: map<char, OptValue>)
    ensures KeysOf(opts, d)
    ensures LastValues(opts, d)
  {
    if |opts| == 0 then map[]
    else
      var n := |opts| - 1;
      var d := OptionDict(opts[..n]);
      OptionDictStep(opts, d);
      d[opts[n].0 := ValueOf(opts[n].1)]
  }

  /** The keys of the dictionary built from `opts`. */
  ghost predicate KeysOf(opts: OptList, d: map<char, OptValue>) {
    forall k :: k in d <==> exists i :: 0 <= i < |opts| && opts[i].0 == k
  }

  /** Each value of the dictionary comes from the last occurrence of its key. */
  ghost predicate LastValues(opts: OptList, d: map<char, OptValue>) {
    forall k :: k in d ==> exists i :: LastAt(opts, k, i) && d[k] == ValueOf(opts[i].1)
  }

  lemma OptionDictStep(opts: OptList, d: map<char, OptValue>)
    requires |opts| > 0
    requires KeysOf(opts[..|opts| - 1], d) && LastValues(opts[..|opts| - 1], d)
    ensures var n := |opts| - 1;
            var d' := d[opts[n].0 := ValueOf(opts[n].1)];
            KeysOf(opts, d') && LastValues(opts, d')
  {
    KeysStep(opts, d);
    LastValuesStep(opts, d);
  }

  lemma KeysStep(opts: OptList, d: map<char, OptValue>)
    requires |opts| > 0
    requires KeysOf(opts[..|opts| - 1], d)
    ensures KeysOf(opts, d[opts[|opts| - 1].0 := ValueOf(opts[|opts| - 1].1)])
  {
    var n := |opts| - 1;
    var p := opts[..n];
    var d' := d[opts[n].0 := ValueOf(opts[n].1)];
    forall k | exists i :: 0 <= i < |opts| && opts[i].0 == k
      ensures k in d'
    {
      var i :| 0 <= i < |opts| && opts[i].0 == k;
      if i < n {
        assert p[i].0 == k;
      }
    }
    forall k | k in d'
      ensures exists i :: 0 <= i < |opts| && opts[i].0 == k
    {
      if k != opts[n].0 {
        var i :| 0 <= i < |p| && p[i].0 == k;
        assert opts[i].0 == k;
      } else {
        assert opts[n].0 == k;
      }
    }
  }

  lemma LastValuesStep(opts: OptList, d: map<char, OptValue>)
    requires |opts| > 0
    requires LastValues(opts[..|opts| - 1], d)
    ensures LastValues(opts, d[opts[|opts| - 1].0 := ValueOf(opts[|opts| - 1].1)])
  {
    var n := |opts| - 1;
    var p := opts[..n];
    var d' := d[opts[n].0 := ValueOf(opts[n].1)];
    forall k | k in d'
      ensures exists i :: LastAt(opts, k, i) && d'[k] == ValueOf(opts[i].1)
    {
      if k == opts[n].0 {
        assert LastAt(opts, k, n);
      } else {
        var i :| LastAt(p, k, i) && d[k] == ValueOf(p[i].1);
        assert LastAt(opts, k, i);
      }
    }
  }

  /** `-d` is accepted by every command because `main` prepends it to the spec
      (as long as the spec does not itself begin with `:`). */
  lemma DebugFlagAlwaysAccepted(spec: string, rest: seq<string>)
    requires |spec| == 0 || spec[0] != ':'
    ensures var r := Getopt(["-d"] + rest, "d" + spec);
            var r' := Getopt(rest, "d" + spec);
            r.Success? == r'.Success?
            && (r.Success? ==> r.value == ([('d', "")] + r'.value.0, r'.value.1))
  {
    var args := ["-d"] + rest;
    var full := "d" + spec;
    assert args[0] == "-d" && args[1..] == rest;
    assert "-d"[..1] == "-";
    assert "-d"[1] != '-';
    assert StartsWith(args[0], "-") && !StartsWith(args[0], "--");
    assert args[0][1..] == "d";
    assert ShortHasArg('d', full) == Success(false) by {
      assert full[0] == 'd';
      assert |full| == 1 || full[1] != ':';
    }
    assert DoShorts("d", full, rest) == Success(([('d', "")], rest)) by {
      assert "d"[1..] == "";
      assert "d"[0] == 'd';
      assert DoShorts("", full, rest) == Success(([], rest));
      assert [('d', "")] + [] == [('d', "")];
    }
  }
}

=== FILE: profile_form.dfy ===
/** The form `update_provisioning_profile` builds for `profile/regenProvisioningProfile`:
    an ordered list of key/value pairs in which `certificateIds` and `deviceIds`
    repeat once per element. */
module ProfileForm {
  import opened Wrappers
  import opened Resources
  import opened Envelope

  /** The keyword arguments of `update_provisioning_profile`; `None` is Python's `None`. */
  datatype Overrides = Overrides(
    name: Option<string>,
    appId: Option<string>,
    certificates: Option<seq<Entry<CertRequest>>>,
    devices: Option<seq<Entry<Device>>>,
    distributionType: Option<string>)

  const NoOverrides := Overrides(None, None, None, None, None)

  /** Python's `value or fallback` for an optional string: `None` and `""` are both falsy. */
  function OrElse(value: Option<string>, fallback: string): (r: string)
    ensures (value.None? || value.value == "") ==> r == fallback
    ensures (value.Some? && value.value != "") ==> r == value.value
  {
    if value.Some? && value.value != "" then value.value else fallback
  }

  /** A certificate given as a record is sent as its `certificateId`; a string as itself. */
  function CertId(e: Entry<CertRequest>): string {
    match e
    case Obj(c) => c.certificateId
    case Id(s) => s
  }

  /** A device given as a record is sent as its `deviceId`; a string as itself. */
  function DeviceId(e: Entry<Device>): string {
    match e
    case Obj(d) => d.deviceId
    case Id(s) => s
  }

  function Ids<T>(ids: seq<string>): (r: seq<Entry<T>>)
    ensures |r| == |ids|
    ensures forall i :: 0 <= i < |ids| ==> r[i] == Id(ids[i])
  {
    if |ids| == 0 then [] else [Id(ids[0])] + Ids(ids[1..])
  }

  /** `certificate_ids or profile['certificateIds']`: an empty list falls back too. */
  function CertificateList(p: Profile, o: Overrides): seq<Entry<CertRequest>> {
    if o.certificates.Some? && |o.certificates.value| > 0 then o.certificates.value
    else Ids(p.certificateIds)
  }

  /** `if device_ids is None: device_ids = profile['deviceIds']`: only `None` falls back. */
  function DeviceList(p: Profile, o: Overrides): seq<Entry<Device>> {
    if o.devices.Some? then o.devices.value else Ids(p.deviceIds)
  }

  /** The loop over certificates: one pair per element, in order. */
  function CertificatePairs(cs: seq<Entry<CertRequest>>): (f: Form)
    ensures |f| == |cs|
  {
    if |cs| == 0 then [] else [("certificateIds", CertId(cs[0]))] + CertificatePairs(cs[1..])
  }

  /** The loop over devices: one pair per element, in order. */
  function DevicePairs(ds: seq<Entry<Device>>): (f: Form)
    ensures |f| == |ds|
  {
    if |ds| == 0 then [] else [("deviceIds", DeviceId(ds[0]))] + DevicePairs(ds[1..])
  }

  /** The five pairs every update form begins with. */
  function Header(p: Profile, o: Overrides): Form {
    [ ("provisioningProfileId", p.provisioningProfileId),
      ("distributionType", OrElse(o.distributionType, p.distributionMethod)),
      ("returnFullObjects", "false"),
      ("provisioningProfileName", OrElse(o.name, p.name)),
      ("appIdId", OrElse(o.appId, p.appId.appIdId)) ]
  }

  /** The form `update_provisioning_profile(profile, ...)` passes to `_api`. */
  function UpdateForm(p: Profile, o: Overrides): (f: Form)
    ensures |f| == 5 + |CertificateList(p, o)| + |DeviceList(p, o)|
    ensures f[0] == ("provisioningProfileId", p.provisioningProfileId)
    ensures f[1].0 == "distributionType" && f[2] == ("returnFullObjects", "false")
    ensures f[3].0 == "provisioningProfileName" && f[4].0 == "appIdId"
    ensures forall i :: 5 <= i < 5 + |CertificateList(p, o)| ==> f[i].0 == "certificateIds"
    ensures forall i :: 5 + |CertificateList(p, o)| <= i < |f| ==> f[i].0 == "deviceIds"
  {
    var cs := CertificatePairs(CertificateList(p, o));
    var ds := DevicePairs(DeviceList(p, o));
    assert forall i :: 0 <= i < |cs| ==> cs[i].0 == "certificateIds" by {
      PairsHaveKey(CertificateList(p, o));
    }
    assert forall i :: 0 <= i < |ds| ==> ds[i].0 == "deviceIds" by {
      DevicePairsHaveKey(DeviceList(p, o));
    }
    Header(p, o) + cs + ds
  }

  lemma {:induction false} PairsHaveKey(cs: seq<Entry<CertRequest>>)
    ensures forall i :: 0 <= i < |cs| ==> CertificatePairs(cs)[i].0 == "certificateIds"
  {
    if |cs| > 0 {
      PairsHaveKey(cs[1..]);
    }
  }

  lemma {:induction false} DevicePairsHaveKey(ds: seq<Entry<Device>>)
    ensures forall i :: 0 <= i < |ds| ==> DevicePairs(ds)[i].0 == "deviceIds"
  {
    if |ds| > 0 {
      DevicePairsHaveKey(ds[1..]);
    }
  }

  /** What the backend reads for a repeated key: all its values, in form order. */
  function Values(f: Form, key: string): seq<string> {
    if |f| == 0 then []
    else if f[0].0 == key then [f[0].1] + Values(f[1..], key)
    else Values(f[1..], key)
  }

  lemma {:induction false} ValuesAppend(a: Form, b: Form, key: string)
    ensures Values(a + b, key) == Values(a, key) + Values(b, key)
  {
    if |a| > 0 {
      assert (a + b)[1..] == a[1..] + b;
      ValuesAppend(a[1..], b, key);
    } else {
      assert a + b == b;
    }
  }

  /** The certificate ids the form should carry: the overriding list when it is
      non-empty, else the profile's own; records unwrapped, order kept. */
  function ChosenCertificateIds(p: Profile, o: Overrides): seq<string> {
    if o.certificates.Some? && |o.certificates.value| > 0 then
      seq(|o.certificates.value|, i requires 0 <= i < |o.certificates.value| => CertId(o.certificates.value[i]))
    else p.certificateIds
  }

  /** The device ids the form should carry: the overriding list whenever one is
      given, even empty, else the profile's own. */
  function ChosenDeviceIds(p: Profile, o: Overrides): seq<string> {
    if o.devices.Some? then
      seq(|o.devices.value|, i requires 0 <= i < |o.devices.value| => DeviceId(o.devices.value[i]))
    else p.deviceIds
  }

  lemma {:induction false} CertificateValues(cs: seq<Entry<CertRequest>>)
    ensures Values(CertificatePairs(cs), "certificateIds") == seq(|cs|, i requires 0 <= i < |cs| => CertId(cs[i]))
    ensures Values(CertificatePairs(cs), "deviceIds") == []
  {
    if |cs| > 0 {
      CertificateValues(cs[1..]);
    }
  }

  lemma {:induction false} DeviceValues(ds: seq<Entry<Device>>)
    ensures Values(DevicePairs(ds), "deviceIds") == seq(|ds|, i requires 0 <= i < |ds| => DeviceId(ds[i]))
    ensures Values(DevicePairs(ds), "certificateIds") == []
  {
    if |ds| > 0 {
      DeviceValues(ds[1..]);
    }
  }

  /** Reading the form back gives each field with its fallback applied: header
      fields fall back whenever the override is falsy, certificates when the
      override is None or empty, devices only when it is None. */
  lemma {:induction false} UpdateFormCarriesChosenValues(p: Profile, o: Overrides)
    ensures var f := UpdateForm(p, o);
      && Values(f, "provisioningProfileId") == [p.provisioningProfileId]
      && Values(f, "distributionType") == [OrElse(o.distributionType, p.distributionMethod)]
      && Values(f, "returnFullObjects") == ["false"]
      && Values(f, "provisioningProfileName") == [OrElse(o.name, p.name)]
      && Values(f, "appIdId") == [OrElse(o.appId, p.appId.appIdId)]
      && Values(f, "certificateIds") == ChosenCertificateIds(p, o)
      && Values(f, "deviceIds") == ChosenDeviceIds(p, o)
  {
    HeaderFieldValues(p, o);
    ListFieldValues(p, o);
  }

  /** The form read back for one key: the header's part, then the certificates', then the devices'. */
  lemma FormSplit(p: Profile, o: Overrides, key: string)
    ensures Values(UpdateForm(p, o), key)
         == Values(Header(p, o), key)
            + (Values(CertificatePairs(CertificateList(p, o)), key) + Values(DevicePairs(DeviceList(p, o)), key))
  {
    var h := Header(p, o);
    var cs := CertificatePairs(CertificateList(p, o));
    var ds := DevicePairs(DeviceList(p, o));
    assert UpdateForm(p, o) == h + (cs + ds);
    ValuesAppend(h, cs + ds, key);
    ValuesAppend(cs, ds, key);
  }

  /** A header key is read from the header alone. */
  lemma HeaderKeyValues(p: Profile, o: Overrides, key: string)
    requires key != "certificateIds" && key != "deviceIds"
    ensures var h := Header(p, o);
            Values(UpdateForm(p, o), key)
              == ValueIf(h[0], key) + (ValueIf(h[1], key) + (ValueIf(h[2], key) + (ValueIf(h[3], key) + ValueIf(h[4], key))))
  {
    var h := Header(p, o);
    FormSplit(p, o, key);
    NoOtherCertKeys(CertificateList(p, o), key);
    NoOtherDeviceKeys(DeviceList(p, o), key);
    Values5(h[0], h[1], h[2], h[3], h[4], key);
  }

  lemma HeaderFieldValues(p: Profile, o: Overrides)
    ensures var f := UpdateForm(p, o);
      && Values(f, "provisioningProfileId") == [p.provisioningProfileId]
      && Values(f, "distributionType") == [OrElse(o.distributionType, p.distributionMethod)]
      && Values(f, "returnFullObjects") == ["false"]
      && Values(f, "provisioningProfileName") == [OrElse(o.name, p.name)]
      && Values(f, "appIdId") == [OrElse(o.appId, p.appId.appIdId)]
  {
    HeaderKeyValues(p, o, "provisioningProfileId");
    HeaderKeyValues(p, o, "distributionType");
    HeaderKeyValues(p, o, "returnFullObjects");
    HeaderKeyValues(p, o, "provisioningProfileName");
    HeaderKeyValues(p, o, "appIdId");
  }

  lemma ListFieldValues(p: Profile, o: Overrides)
    ensures var f := UpdateForm(p, o);
      && Values(f, "certificateIds") == ChosenCertificateIds(p, o)
      && Values(f, "deviceIds") == ChosenDeviceIds(p, o)
  {
    var h := Header(p, o);
    var cl := CertificateList(p, o);
    var dl := DeviceList(p, o);
    FormSplit(p, o, "certificateIds");
    FormSplit(p, o, "deviceIds");
    Values5(h[0], h[1], h[2], h[3], h[4], "certificateIds");
    Values5(h[0], h[1], h[2], h[3], h[4], "deviceIds");
    CertificateValues(cl);
    DeviceValues(dl);
  }

  function ValueIf(pair: (string, string), key: string): seq<string> {
    if pair.0 == key then [pair.1] else []
  }

  lemma Values5(a: (string, string), b: (string, string), c: (string, string),
                d: (string, string), e: (string, string), key: string)
    ensures Values([a, b, c, d, e], key)
         == ValueIf(a, key) + (ValueIf(b, key) + (ValueIf(c, key) + (ValueIf(d, key) + ValueIf(e, key))))
  {
    var s4: Form := [e];
    var s3 := [d] + s4;
    var s2 := [c] + s3;
    var s1 := [b] + s2;
    var s0 := [a] + s1;
    assert s0 == [a, b, c, d, e];
    ValuesCons(e, [], key);
    assert s4 == [e] + [];
    assert ValueIf(e, key) + [] == ValueIf(e, key);
    ValuesCons(d, s4, key);
    ValuesCons(c, s3, key);
    ValuesCons(b, s2, key);
    ValuesCons(a, s1, key);
  }

  lemma ValuesCons(x: (string, string), rest: Form, key: string)
    ensures Values([x] + rest, key) == ValueIf(x, key) + Values(rest, key)
  {
    assert ([x] + rest)[1..] == rest;
  }

  lemma {:induction false} NoOtherCertKeys(cl: seq<Entry<CertRequest>>, k: string)
    requires k != "certificateIds"
    ensures Values(CertificatePairs(cl), k) == []
  {
    if |cl| > 0 {
      NoOtherCertKeys(cl[1..], k);
    }
  }

  lemma {:induction false} NoOtherDeviceKeys(dl: seq<Entry<Device>>, k: string)
    requires k != "deviceIds"
    ensures Values(DevicePairs(dl), k) == []
  {
    if |dl| > 0 {
      NoOtherDeviceKeys(dl[1..], k);
    }
  }

  /** `device_ids=[]` sends no device at all, while `certificate_ids=[]` sends the
      profile's own certificates: the asymmetry of the two fallbacks. */
  lemma EmptyListsAreTreatedDifferently(p: Profile, o: Overrides)
    requires o.certificates == Some([]) && o.devices == Some([])
    ensures Values(UpdateForm(p, o), "deviceIds") == []
    ensures Values(UpdateForm(p, o), "certificateIds") == p.certificateIds
  {
    UpdateFormCarriesChosenValues(p, o);
  }

  /** An empty name, app id or distribution type is falsy, so the profile's value is sent. */
  lemma EmptyStringsFallBack(p: Profile, o: Overrides)
    requires o.name == Some("") && o.appId == Some("") && o.distributionType == Some("")
    ensures UpdateForm(p, o)[..5] == UpdateForm(p, NoOverrides.(certificates := o.certificates, devices := o.devices))[..5]
  {
  }
}

=== FILE: regenerate.dfy ===
/** `cmd_regenerate_profile`: which of the filtered profiles are regenerated, with
    which devices and certificates, and the update calls that result.

    The certificate lists (`list_cert_requests` for the development and the
    distribution type), the device list (`all_devices`) and `profile_type_name`
    enter as a `Context`; the profiles enter as `_filter_profiles` returns them. */
module Regenerate {
  import opened Wrappers
  import opened Resources
  import opened Options
  import opened Envelope
  import opened ProfileForm

  datatype Context = Context(
    devices: seq<Device>,
    devCerts: seq<CertRequest>,
    distCerts: seq<CertRequest>,
    typeName: Profile -> string)

  /** The decision for one selected profile. */
  datatype Plan = Skip | Renew(devices: seq<Device>, certificates: seq<CertRequest>)

  /** The devices a profile of this kind should hold: none for the app store, all otherwise. */
  function DevicesFor(ctx: Context, p: Profile): seq<Device> {
    if ctx.typeName(p) == "appstore" then [] else ctx.devices
  }

  /** The skip-or-regenerate rule: a profile is left alone iff it has not expired
      and already holds as many devices as it should; otherwise development
      profiles get the development certificates and every other kind the
      distribution certificates. */
  function Decide(ctx: Context, p: Profile): (d: Plan)
    ensures d.Skip? <==> !IsExpired(p) && p.deviceCount == |DevicesFor(ctx, p)|
    ensures IsExpired(p) ==> d.Renew?
    ensures d.Renew? ==> d.devices == DevicesFor(ctx, p)
    ensures d.Renew? ==> d.certificates == (if ctx.typeName(p) == "development" then ctx.devCerts else ctx.distCerts)
  {
    var devs := DevicesFor(ctx, p);
    if !IsExpired(p) && p.deviceCount == |devs| then Skip
    else
      var certs := if ctx.typeName(p) == "development" then ctx.devCerts else ctx.distCerts;
      Renew(devs, certs)
  }

  /** When `profile_type_name` agrees with `profile_type`, an unexpired app-store
      profile is never regenerated, and an unexpired ad hoc or development profile
      is regenerated iff its device count differs from the number of devices. */
  lemma SkipRuleByKind(ctx: Context, p: Profile)
    requires ctx.typeName(p) == KindName(ProfileType(p))
    requires !IsExpired(p)
    ensures ProfileType(p) == AppStore ==> Decide(ctx, p) == Skip
    ensures ProfileType(p) != AppStore ==> (Decide(ctx, p).Skip? <==> p.deviceCount == |ctx.devices|)
    ensures ProfileType(p) == Development && Decide(ctx, p).Renew? ==> Decide(ctx, p).certificates == ctx.devCerts
    ensures ProfileType(p) == AdHoc && Decide(ctx, p).Renew? ==> Decide(ctx, p).certificates == ctx.distCerts
  {
  }

  /** Expiry is the status string `Expired` and nothing else: such a profile is
      renewed whatever its devices, and any other status leaves the decision to
      the device count. */
  lemma ExpiryDecidedByStatus(ctx: Context, p: Profile)
    ensures p.status == "Expired" ==> Decide(ctx, p).Renew?
    ensures p.status != "Expired" ==> (Decide(ctx, p).Skip? <==> p.deviceCount == |DevicesFor(ctx, p)|)
  {
  }

  /** One `api.update_provisioning_profile(profile, device_ids=devs,
      certificate_ids=certs)` call; the form it sends is `RenewalForm`. */
  datatype Update = Update(profile: Profile, devices: seq<Device>, certificates: seq<CertRequest>)

  /** The form of a renewal carries the chosen devices exactly (an app-store
      profile loses all its devices), and the chosen certificates unless there
      are none, in which case the profile keeps its own; name, app id and
      distribution method are the profile's. */
  function RenewalForm(p: Profile, devs: seq<Device>, certs: seq<CertRequest>): (f: Form)
    ensures Values(f, "provisioningProfileId") == [p.provisioningProfileId]
    ensures Values(f, "provisioningProfileName") == [p.name]
    ensures Values(f, "appIdId") == [p.appId.appIdId]
    ensures Values(f, "distributionType") == [p.distributionMethod]
    ensures Values(f, "deviceIds") == seq(|devs|, i requires 0 <= i < |devs| => devs[i].deviceId)
    ensures Values(f, "certificateIds") ==
              (if |certs| == 0 then p.certificateIds
               else seq(|certs|, i requires 0 <= i < |certs| => certs[i].certificateId))
  {
    var o := Overrides(None, None, Some(Objs(certs)), Some(Objs(devs)), None);
    UpdateFormCarriesChosenValues(p, o);
    UpdateForm(p, o)
  }

  /** A profile is considered when `-a` is given or its id is one of the arguments. */
  predicate Selected(args: seq<string>, opts: map<char, OptValue>, p: Profile) {
    'a' in opts || p.provisioningProfileId in args
  }

  /** The calls one found profile leads to: none when it is not selected, when it
      is skipped, or under `-n`. */
  function Step(args: seq<string>, opts: map<char, OptValue>, ctx: Context, p: Profile): (u: seq<Update>)
    ensures |u| <= 1
    ensures |u| == 1 <==> Selected(args, opts, p) && Decide(ctx, p).Renew? && 'n' !in opts
    ensures |u| == 1 ==> u[0] == Update(p, Decide(ctx, p).devices, Decide(ctx, p).certificates)
  {
    if !Selected(args, opts, p) then []
    else
      match Decide(ctx, p)
      case Skip => []
      case Renew(devs, certs) =>
        if 'n' in opts then [] else [Update(p, devs, certs)]
  }

  /** The error `cmd_regenerate_profile` stops with. */
  datatype RegenError =
    | NoProfileGiven          // `CLIError('Must specify at least one profile (or use -a)')`
    | NotADict(id: string)    // a miss indexed with `'provisioningProfileId'`: `TypeError`
    | Rejected(call: Update)  // `APIServiceException` from `_api`, reported by `main`

  /** The calls made before the command stopped, and why it stopped, if it did. */
  datatype Run = Run(updates: seq<Update>, error: Option<RegenError>)

  /** Sending calls in order through `_api`, where `accepted` is the service's
      verdict on each call: the first rejected call raises `APIServiceException`,
      which `main` reports before exiting, so no later call is made. The calls
      made include the rejected one. */
  function Send(calls: seq<Update>, accepted: Update -> bool): (r: Run)
    ensures |r.updates| <= |calls| && r.updates == calls[..|r.updates|]
    ensures r.error.None? <==> forall i :: 0 <= i < |calls| ==> accepted(calls[i])
    ensures r.error.None? ==> r.updates == calls
    ensures r.error.Some? ==>
              && |r.updates| > 0
              && r.error.value == Rejected(r.updates[|r.updates| - 1])
              && !accepted(r.updates[|r.updates| - 1])
              && forall i :: 0 <= i < |r.updates| - 1 ==> accepted(r.updates[i])
  {
    if |calls| == 0 then Run([], None)
    else if !accepted(calls[0]) then Run([calls[0]], Some(Rejected(calls[0])))
    else
      var rest := Send(calls[1..], accepted);
      assert forall i :: 1 <= i < |calls| ==> calls[i] == calls[1..][i - 1];
      var sent := [calls[0]] + rest.updates;
      assert forall i :: 1 <= i < |sent| ==> sent[i] == rest.updates[i - 1];
      Run(sent, rest.error)
  }

  /** The calls made, position by position, are the calls planned. */
  lemma SentInOrder(calls: seq<Update>, accepted: Update -> bool)
    ensures var sent := Send(calls, accepted).updates;
            |sent| <= |calls| && forall i :: 0 <= i < |sent| ==> sent[i] == calls[i]
  {
    var sent := Send(calls, accepted).updates;
    assert sent == calls[..|sent|];
  }

  /** No call after a rejected one is made. */
  lemma {:induction false} NothingSentAfterRejection(calls: seq<Update>, accepted: Update -> bool, k: int)
    requires 0 <= k < |calls| && !accepted(calls[k])
    ensures |Send(calls, accepted).updates| <= k + 1
  {
    if k > 0 && accepted(calls[0]) {
      assert calls[1..][k - 1] == calls[k];
      NothingSentAfterRejection(calls[1..], accepted, k - 1);
    }
  }

  /** The loop as written: a miss from the resolver is read as a record, which
      raises after the updates for the earlier profiles have been sent. */
  function LoopAsWritten(args: seq<string>, opts: map<char, OptValue>, ctx: Context,
                         profiles: seq<Entry<Profile>>): (r: Run)
    ensures r.error.None? <==> Missing(profiles) == []
    ensures r.error.Some? ==> r.error.value == NotADict(Missing(profiles)[0])
    ensures r.updates == Planned(args, opts, ctx, Found(profiles[..FirstMiss(profiles)]))
  {
    if |profiles| == 0 then Run([], None)
    else
      match profiles[0]
      case Id(id) => Run([], Some(NotADict(id)))
      case Obj(p) =>
        var rest := LoopAsWritten(args, opts, ctx, profiles[1..]);
        var before := profiles[..FirstMiss(profiles)];
        assert before[1..] == profiles[1..][..FirstMiss(profiles[1..])];
        assert Found(before) == [p] + Found(before[1..]);
        assert ([p] + Found(before[1..]))[1..] == Found(before[1..]);
        Run(Step(args, opts, ctx, p) + rest.updates, rest.error)
  }

  function RegenerateAsWritten(args: seq<string>, opts: map<char, OptValue>, ctx: Context,
                               profiles: seq<Entry<Profile>>): (r: Run)
    ensures |args| == 0 && 'a' !in opts ==> r == Run([], Some(NoProfileGiven))
    ensures |args| > 0 || 'a' in opts ==> (r.error.None? <==> Missing(profiles) == [])
  {
    if |args| == 0 && 'a' !in opts then Run([], Some(NoProfileGiven))
    else LoopAsWritten(args, opts, ctx, profiles)
  }

  /** A single unknown id among the arguments stops the command with a
      `TypeError` before any profile is regenerated. */
  lemma AsWrittenStopsOnMiss(args: seq<string>, opts: map<char, OptValue>, ctx: Context,
                             id: string, rest: seq<Entry<Profile>>)
    requires |args| > 0
    ensures RegenerateAsWritten(args, opts, ctx, [Id(id)] + rest) == Run([], Some(NotADict(id)))
  {
    assert ([Id(id)] + rest)[0] == Id(id);
  }

  /** The calls for the found profiles, in order: the reference the loop is
      measured against. */
  function Planned(args: seq<string>, opts: map<char, OptValue>, ctx: Context, profiles: seq<Profile>): seq<Update> {
    if |profiles| == 0 then []
    else Step(args, opts, ctx, profiles[0]) + Planned(args, opts, ctx, profiles[1..])
  }

  /** Every planned call is for a selected profile the rule does not skip, and
      every such profile gets its call; nothing is sent under `-n`. */
  lemma {:induction false} PlannedCalls(args: seq<string>, opts: map<char, OptValue>, ctx: Context, profiles: seq<Profile>)
    ensures 'n' in opts ==> Planned(args, opts, ctx, profiles) == []
    ensures forall u :: u in Planned(args, opts, ctx, profiles) ==>
              u.profile in profiles && Selected(args, opts, u.profile) && Decide(ctx, u.profile).Renew?
    ensures forall i :: (0 <= i < |profiles| && Selected(args, opts, profiles[i])
                         && Decide(ctx, profiles[i]).Renew? && 'n' !in opts) ==>
              Update(profiles[i], Decide(ctx, profiles[i]).devices, Decide(ctx, profiles[i]).certificates)
                in Planned(args, opts, ctx, profiles)
  {
    if |profiles| > 0 {
      PlannedCalls(args, opts, ctx, profiles[1..]);
      var r := Planned(args, opts, ctx, profiles);
      var head := Step(args, opts, ctx, profiles[0]);
      assert r == head + Planned(args, opts, ctx, profiles[1..]);
      forall i | 0 <= i < |profiles| && Selected(args, opts, profiles[i])
          && Decide(ctx, profiles[i]).Renew? && 'n' !in opts
        ensures Update(profiles[i], Decide(ctx, profiles[i]).devices, Decide(ctx, profiles[i]).certificates) in r
      {
        if i > 0 {
          assert profiles[1..][i - 1] == profiles[i];
        }
      }
    }
  }

  /** `cmd_regenerate_profile` with a miss reported and skipped, as the other
      commands that act on filtered entries do: the exit status is 1 iff an id
      was not found, and the found profiles are handled in order. */
  function Regenerate(args: seq<string>, opts: map<char, OptValue>, ctx: Context,
                      profiles: seq<Entry<Profile>>): (r: Result<(seq<Update>, int), RegenError>)
    ensures r.Failure? <==> |args| == 0 && 'a' !in opts
    ensures r.Failure? ==> r.error == NoProfileGiven
    ensures r.Success? ==> (r.value.1 == 1 <==> Missing(profiles) != []) && (r.value.1 == 0 || r.value.1 == 1)
    ensures r.Success? ==> r.value.0 == Planned(args, opts, ctx, Found(profiles))
  {
    if |args| == 0 && 'a' !in opts then Failure(NoProfileGiven)
    else Success((Planned(args, opts, ctx, Found(profiles)), if Missing(profiles) == [] then 0 else 1))
  }

  /** Without misses the command as written and the corrected one send the
      same calls; the discrepancy lies only in the handling of misses. */
  lemma {:induction false} AgreeWithoutMisses(args: seq<string>, opts: map<char, OptValue>, ctx: Context,
                                              profiles: seq<Entry<Profile>>)
    requires Missing(profiles) == []
    ensures LoopAsWritten(args, opts, ctx, profiles) == Run(Planned(args, opts, ctx, Found(profiles)), None)
  {
    if |profiles| > 0 {
      assert profiles[0].Obj?;
      assert Missing(profiles[1..]) == [];
      AgreeWithoutMisses(args, opts, ctx, profiles[1..]);
    }
  }
}

=== FILE: resources.dfy ===
/** The records the portal backend returns (only the fields the client reads or
    writes), the "dict or id string" entries the client passes around, and the
    derived three-way profile classification. */
module Resources {

  datatype CertRequest = CertRequest(
    certificateId: string,
    certificateTypeDisplayId: string,
    name: string)

  datatype AppId = AppId(appIdId: string, identifier: string, name: string)

  datatype Device = Device(deviceId: string, deviceNumber: string, name: string, status: string)

  /** `declaredType` is the backend's `type` field (`Development` or something else). */
  datatype Profile = Profile(
    provisioningProfileId: string,
    name: string,
    status: string,
    declaredType: string,
    deviceCount: int,
    deviceIds: seq<string>,
    certificateIds: seq<string>,
    appId: AppId,
    distributionMethod: string)

  /** A list element that is either a record (a Python dict) or a bare id string:
      the resolver's misses, and the caller-supplied certificate and device lists. */
  datatype Entry<T> = Obj(value: T) | Id(id: string)

  predicate IsId<T>(e: Entry<T>) { e.Id? }

  /** Every element is a record. */
  function Objs<T>(s: seq<T>): (r: seq<Entry<T>>)
    ensures |r| == |s|
    ensures forall i :: 0 <= i < |s| ==> r[i] == Obj(s[i])
  {
    if |s| == 0 then [] else [Obj(s[0])] + Objs(s[1..])
  }

  /** The records among `s`, in order. */
  function Found<T>(s: seq<Entry<T>>): (r: seq<T>)
    ensures |r| <= |s|
    ensures forall i :: 0 <= i < |s| && s[i].Obj? ==> s[i].value in r
    ensures (forall i :: 0 <= i < |s| ==> s[i].Obj?) ==> |r| == |s|
  {
    if |s| == 0 then []
    else
      if s[0].Obj? then [s[0].value] + Found(s[1..]) else Found(s[1..])
  }

  /** The ids among `s`, in order: the misses a command reports. */
  function Missing<T>(s: seq<Entry<T>>): (r: seq<string>)
    ensures |r| <= |s|
    ensures |r| == 0 <==> forall i :: 0 <= i < |s| ==> s[i].Obj?
    ensures forall i :: 0 <= i < |s| && s[i].Id? ==> s[i].id in r
  {
    if |s| == 0 then []
    else
      if s[0].Id? then [s[0].id] + Missing(s[1..]) else Missing(s[1..])
  }

  /** Nothing is invented: every record found and every id reported is an entry
      of the list. */
  lemma {:induction false} OnlyEntriesReported<T>(s: seq<Entry<T>>)
    ensures forall j :: 0 <= j < |Found(s)| ==> Obj(Found(s)[j]) in s
    ensures forall j :: 0 <= j < |Missing(s)| ==> Id(Missing(s)[j]) in s
  {
    if |s| > 0 {
      OnlyEntriesReported(s[1..]);
      assert forall e :: e in s[1..] ==> e in s;
    }
  }

  /** Every entry is either found or reported, never both and never neither. */
  lemma {:induction false} FoundAndMissingPartition<T>(s: seq<Entry<T>>)
    ensures |Found(s)| + |Missing(s)| == |s|
  {
    if |s| > 0 {
      FoundAndMissingPartition(s[1..]);
    }
  }

  /** A single entry is either one record found or one id reported; with the
      two splitting lemmas below this determines both lists for any input. */
  lemma SingleEntry<T>(e: Entry<T>)
    ensures Found([e]) == (if e.Obj? then [e.value] else [])
    ensures Missing([e]) == (if e.Id? then [e.id] else [])
  {
    assert [e][1..] == [];
  }

  /** Splitting a list splits its records, so `Found` keeps their order. */
  lemma {:induction false} FoundAppend<T>(s: seq<Entry<T>>, t: seq<Entry<T>>)
    ensures Found(s + t) == Found(s) + Found(t)
  {
    if |s| > 0 {
      assert (s + t)[1..] == s[1..] + t;
      FoundAppend(s[1..], t);
    } else {
      assert s + t == t;
    }
  }

  /** Splitting a list splits its misses, so `Missing` keeps their order. */
  lemma {:induction false} MissingAppend<T>(s: seq<Entry<T>>, t: seq<Entry<T>>)
    ensures Missing(s + t) == Missing(s) + Missing(t)
  {
    if |s| > 0 {
      assert (s + t)[1..] == s[1..] + t;
      MissingAppend(s[1..], t);
    } else {
      assert s + t == t;
    }
  }

  /** The position of the first miss, or the length when there is none. */
  function FirstMiss<T>(s: seq<Entry<T>>): (k: nat)
    ensures k <= |s|
    ensures forall i :: 0 <= i < k ==> s[i].Obj?
    ensures k < |s| ==> s[k].Id?
  {
    if |s| == 0 || s[0].Id? then 0
    else
      var k := 1 + FirstMiss(s[1..]);
      assert forall i :: 1 <= i < k ==> s[i] == s[1..][i - 1];
      k
  }

  lemma {:induction false} FoundObjs<T>(s: seq<T>)
    ensures Found(Objs(s)) == s
  {
    if |s| > 0 {
      assert Objs(s)[1..] == Objs(s[1..]);
      FoundObjs(s[1..]);
    }
  }

  lemma {:induction false} FoundSnoc<T>(s: seq<Entry<T>>, e: Entry<T>)
    ensures Found(s + [e]) == Found(s) + (if e.Obj? then [e.value] else [])
  {
    if |s| > 0 {
      assert (s + [e])[1..] == s[1..] + [e];
      FoundSnoc(s[1..], e);
    } else {
      assert s + [e] == [e];
    }
  }

  datatype ProfileKind = Development | AdHoc | AppStore

  /** The strings `profile_type` returns. */
  function KindName(k: ProfileKind): string {
    match k
    case Development => "development"
    case AdHoc => "adhoc"
    case AppStore => "appstore"
  }

  lemma KindNameInjective(a: ProfileKind, b: ProfileKind)
    ensures KindName(a) == KindName(b) <==> a == b
  {
  }

  /** `profile_type`: the declared type decides development whatever the device
      count; otherwise a nonzero device count (Python truthiness) means ad hoc. */
  function ProfileType(p: Profile): (k: ProfileKind)
    ensures k == Development <==> p.declaredType == "Development"
    ensures k == AdHoc <==> p.declaredType != "Development" && p.deviceCount != 0
    ensures k == AppStore <==> p.declaredType != "Development" && p.deviceCount == 0
  {
    if p.declaredType == "Development" then Development
    else if p.deviceCount != 0 then AdHoc
    else AppStore
  }

  /** `is_profile_expired` */
  predicate IsExpired(p: Profile) {
    p.status == "Expired"
  }

  /** The certificate type ids of `ALL_CERT_TYPES`, in the order the constants unpack them. */
  const CertTypeIosDevelopment := "5QPB9NHCEI"
  const CertTypeIosDistribution := "R58UK2EWSO"
  const CertTypeUnknown1 := "9RQEK7MSXA"
  const CertTypeUnknown2 := "LA30L5BJEU"
  const CertTypeApnDevelopment := "BKLRAVXMGM"
  const CertTypeApnProduction := "3BQKVH9I2X"
  const CertTypeUnknown3 := "Y3B2F3TYSI"
}

=== FILE: seqs.dfy ===
/** Order-preserving filtering (a Python list comprehension with an `if`) and the
    subsequence relation it produces. */
module Seqs {

  /** `a` can be obtained from `b` by deleting elements, keeping the order. */
  predicate IsSubseq<T(==)>(a: seq<T>, b: seq<T>)
    decreases |b|
  {
    if |a| == 0 then true
    else if |b| == 0 then false
    else if a[0] == b[0] then IsSubseq(a[1..], b[1..])
    else IsSubseq(a, b[1..])
  }

  /** `[x for x in s if p(x)]` */
  function Keep<T(==)>(s: seq<T>, p: T -> bool): (r: seq<T>)
    ensures |r| <= |s|
    ensures IsSubseq(r, s)
    ensures forall i :: 0 <= i < |r| ==> p(r[i])
    ensures forall i :: 0 <= i < |s| && p(s[i]) ==> s[i] in r
  {
    if |s| == 0 then []
    else if p(s[0]) then [s[0]] + Keep(s[1..], p)
    else Keep(s[1..], p)
  }

  /** The filter keeps every copy of a satisfying element and no copy of any other. */
  lemma {:induction false} KeepCounts<T>(s: seq<T>, p: T -> bool)
    ensures forall x :: multiset(Keep(s, p))[x] == (if p(x) then multiset(s)[x] else 0)
  {
    if |s| > 0 {
      KeepCounts(s[1..], p);
      assert s == [s[0]] + s[1..];
      assert multiset(s) == multiset{s[0]} + multiset(s[1..]);
      if p(s[0]) {
        assert multiset(Keep(s, p)) == multiset{s[0]} + multiset(Keep(s[1..], p));
      }
    }
  }

  lemma {:induction false} KeepAppend<T>(a: seq<T>, b: seq<T>, p: T -> bool)
    ensures Keep(a + b, p) == Keep(a, p) + Keep(b, p)
  {
    if |a| > 0 {
      assert (a + b)[1..] == a[1..] + b;
      KeepAppend(a[1..], b, p);
    } else {
      assert a + b == b;
    }
  }

  /** A filter whose predicate holds everywhere keeps the whole list. */
  lemma {:induction false} KeepEverything<T>(s: seq<T>, p: T -> bool)
    requires forall i :: 0 <= i < |s| ==> p(s[i])
    ensures Keep(s, p) == s
  {
    if |s| > 0 {
      KeepEverything(s[1..], p);
    }
  }

  /** Filtering depends only on the predicate's values on the list. */
  lemma {:induction false} KeepSamePredicate<T>(s: seq<T>, p: T -> bool, q: T -> bool)
    requires forall i :: 0 <= i < |s| ==> p(s[i]) == q(s[i])
    ensures Keep(s, p) == Keep(s, q)
  {
    if |s| > 0 {
      KeepSamePredicate(s[1..], p, q);
    }
  }

  /** Two filters in a row are one filter by the conjunction. */
  lemma {:induction false} KeepTwice<T>(s: seq<T>, p: T -> bool, q: T -> bool)
    ensures Keep(Keep(s, p), q) == Keep(s, x => p(x) && q(x))
  {
    if |s| > 0 {
      KeepTwice(s[1..], p, q);
    }
  }

  /** A filter applied only when `use` holds is a filter by `!use || p`. */
  lemma KeepOptional<T>(s: seq<T>, p: T -> bool, use: bool, full: T -> bool)
    requires forall x :: full(x) == (!use || p(x))
    ensures (if use then Keep(s, p) else s) == Keep(s, full)
  {
    if use {
      KeepSamePredicate(s, p, full);
    } else {
      KeepEverything(s, full);
    }
  }

  /** Filtering by `p` and then by `q` is filtering once by any predicate that
      agrees with `p && q` everywhere. */
  lemma {:induction false} KeepThen<T>(s: seq<T>, p: T -> bool, q: T -> bool, full: T -> bool)
    requires forall x :: full(x) == (p(x) && q(x))
    ensures Keep(Keep(s, p), q) == Keep(s, full)
  {
    if |s| > 0 {
      KeepThen(s[1..], p, q, full);
      if p(s[0]) {
        assert ([s[0]] + Keep(s[1..], p))[1..] == Keep(s[1..], p);
      }
    }
  }
}

=== FILE: session.dfy ===
/** The last step of `login`: the team id is read from the certificate-list page
    with the pattern `teamId=([A-Z0-9]*)`, searched from the left. */
module Session {
  import opened Wrappers
  import opened Text

  const Marker := "teamId="

  /** The character class `[A-Z0-9]`. */
  predicate TeamIdChar(c: char) { IsUpper(c) || IsDigit(c) }

  /** `i` is where `re.search` finds the marker: its leftmost occurrence. */
  predicate IsFirstMarker(page: string, i: int) {
    OccursAt(page, Marker, i) && forall k :: 0 <= k < i ==> !OccursAt(page, Marker, k)
  }

  /** `t` is the longest run of `[A-Z0-9]` starting at `j`, as the greedy `*` takes it. */
  predicate IsMaximalRun(page: string, j: int, t: string) {
    0 <= j && j + |t| <= |page| && page[j..j + |t|] == t
    && (forall k :: 0 <= k < |t| ==> TeamIdChar(t[k]))
    && (j + |t| == |page| || !TeamIdChar(page[j + |t|]))
  }

  datatype Session = Session(teamId: string)

  datatype LoginError = LoginError(message: string)

  /** Leftmost occurrence of the marker at or after `from`. */
  function FindMarker(page: string, from: nat): (r: Option<nat>)
    ensures r.None? ==> forall k :: from <= k ==> !OccursAt(page, Marker, k)
    ensures r.Some? ==> from <= r.value && OccursAt(page, Marker, r.value)
    ensures r.Some? ==> forall k :: from <= k < r.value ==> !OccursAt(page, Marker, k)
    decreases |page| + 1 - from
  {
    if from + |Marker| > |page| then None
    else if page[from..from + |Marker|] == Marker then Some(from)
    else FindMarker(page, from + 1)
  }

  /** Length of the `[A-Z0-9]` run starting at `j`. */
  function RunLength(page: string, j: nat): (n: nat)
    requires j <= |page|
    ensures j + n <= |page|
    ensures forall k :: j <= k < j + n ==> TeamIdChar(page[k])
    ensures j + n == |page| || !TeamIdChar(page[j + n])
    decreases |page| - j
  {
    if j == |page| || !TeamIdChar(page[j]) then 0 else 1 + RunLength(page, j + 1)
  }

  /** The group `re.search(r'teamId=([A-Z0-9]*)', page)` captures, or None when it finds no match. */
  function TeamId(page: string): (r: Option<string>)
    ensures r.None? <==> !Contains(page, Marker)
    ensures r.Some? ==> exists i :: IsFirstMarker(page, i) && IsMaximalRun(page, i + |Marker|, r.value)
  {
    match FindMarker(page, 0)
    case None => None
    case Some(i) =>
      var n := RunLength(page, i + |Marker|);
      var t := page[i + |Marker|..i + |Marker| + n];
      assert IsFirstMarker(page, i) && IsMaximalRun(page, i + |Marker|, t);
      Some(t)
  }

  /** The last part of `login`: it fails only when the page has no marker at all. */
  function Login(user: string, page: string): (r: Result<Session, LoginError>)
    ensures r.Failure? <==> !Contains(page, Marker)
    ensures r.Failure? ==> r.error.message == "Login failed, please check credentials (using " + user + ")"
    ensures r.Success? ==> TeamId(page) == Some(r.value.teamId)
  {
    match TeamId(page)
    case None => Failure(LoginError("Login failed, please check credentials (using " + user + ")"))
    case Some(t) => Success(Session(t))
  }

  lemma FirstMarkerUnique(page: string, i: int, j: int)
    requires IsFirstMarker(page, i) && IsFirstMarker(page, j)
    ensures i == j
  {
  }

  lemma MaximalRunUnique(page: string, j: int, s: string, t: string)
    requires IsMaximalRun(page, j, s) && IsMaximalRun(page, j, t)
    ensures s == t
  {
    RunLengthDetermined(page, j, s);
    RunLengthDetermined(page, j, t);
  }

  /** A maximal run has the length `RunLength` computes. */
  lemma RunLengthDetermined(page: string, j: int, t: string)
    requires IsMaximalRun(page, j, t)
    ensures |t| == RunLength(page, j)
    ensures t == page[j..j + RunLength(page, j)]
  {
    var n := RunLength(page, j);
    forall k | j <= k < j + |t| ensures TeamIdChar(page[k]) {
      assert page[k] == t[k - j];
    }
  }

  /** The team id is determined by the text after the leftmost marker: any leftmost
      marker followed by a maximal run yields exactly that run. */
  lemma TeamIdIsRunAfterFirstMarker(page: string, i: int, t: string)
    requires IsFirstMarker(page, i) && IsMaximalRun(page, i + |Marker|, t)
    ensures TeamId(page) == Some(t)
  {
    assert Contains(page, Marker) by { assert OccursAt(page, Marker, i); }
    var i' :| IsFirstMarker(page, i') && IsMaximalRun(page, i' + |Marker|, TeamId(page).value);
    FirstMarkerUnique(page, i, i');
    MaximalRunUnique(page, i + |Marker|, t, TeamId(page).value);
  }

  /** Because the pattern uses `*`, a marker followed by anything outside `[A-Z0-9]`
      (or by the end of the page) logs in with an empty team id. */
  lemma EmptyTeamIdAccepted(page: string, i: int)
    requires IsFirstMarker(page, i)
    requires i + |Marker| == |page| || !TeamIdChar(page[i + |Marker|])
    ensures Login("user", page) == Success(Session(""))
  {
    TeamIdIsRunAfterFirstMarker(page, i, "");
  }
}

=== FILE: text.dfy ===
/** Character classes, ASCII lower-casing, substring tests and the decimal
    rendering Python's `%s` gives an integer. */
module Text {

  predicate IsUpper(c: char) { 'A' <= c <= 'Z' }

  predicate IsLower(c: char) { 'a' <= c <= 'z' }

  predicate IsDigit(c: char) { '0' <= c <= '9' }

  /** `str.lower()` on a byte string in the C locale: only ASCII letters change. */
  function Lower(c: char): (d: char)
    ensures IsUpper(c) ==> d as int == c as int + 32
    ensures !IsUpper(c) ==> d == c
    ensures !IsUpper(d)
  {
    if IsUpper(c) then (c as int + 32) as char else c
  }

  function LowerString(s: string): (t: string)
    ensures |t| == |s|
    ensures forall i :: 0 <= i < |s| ==> t[i] == Lower(s[i])
  {
    if |s| == 0 then [] else [Lower(s[0])] + LowerString(s[1..])
  }

  predicate StartsWith(s: string, prefix: string) {
    |prefix| <= |s| && s[..|prefix|] == prefix
  }

  predicate EndsWith(s: string, suffix: string) {
    |suffix| <= |s| && s[|s| - |suffix|..] == suffix
  }

  /** `needle` occurs in `s` starting at index `i`. */
  predicate OccursAt(s: string, needle: string, i: int) {
    0 <= i && i + |needle| <= |s| && s[i..i + |needle|] == needle
  }

  /** Python's `needle in s` for strings: substring search. */
  function Contains(s: string, needle: string): (b: bool)
    ensures b <==> exists i :: OccursAt(s, needle, i)
  {
    ContainsFrom(s, needle, 0)
  }

  function ContainsFrom(s: string, needle: string, i: nat): (b: bool)
    ensures b <==> exists k :: i <= k && OccursAt(s, needle, k)
    decreases |s| + 1 - i
  {
    if i + |needle| > |s| then false
    else if s[i..i + |needle|] == needle then assert OccursAt(s, needle, i); true
    else ContainsFrom(s, needle, i + 1)
  }

  function DigitChar(d: nat): (c: char)
    requires d < 10
    ensures IsDigit(c)
  {
    "0123456789"[d]
  }

  function DigitValue(c: char): (d: nat)
    requires IsDigit(c)
    ensures d < 10
  {
    c as int - '0' as int
  }

  /** Decimal digits of `n`, most significant first, no leading zeros. */
  function NatToString(n: nat): (s: string)
    ensures |s| > 0
    ensures forall i :: 0 <= i < |s| ==> IsDigit(s[i])
  {
    if n < 10 then [DigitChar(n)] else NatToString(n / 10) + [DigitChar(n % 10)]
  }

  /** Python's `str(n)` for an int: a minus sign, then the digits of the magnitude. */
  function IntToString(n: int): (s: string)
    ensures |s| > 0
    ensures forall i :: 0 <= i < |s| ==> IsDigit(s[i]) || (i == 0 && s[i] == '-')
    ensures (n < 0) <==> s[0] == '-'
  {
    if n < 0 then "-" + NatToString(-n) else NatToString(n)
  }

  function ParseNat(s: string): nat
    requires forall i :: 0 <= i < |s| ==> IsDigit(s[i])
  {
    if |s| == 0 then 0 else ParseNat(s[..|s| - 1]) * 10 + DigitValue(s[|s| - 1])
  }

  function ParseInt(s: string): int
    requires |s| > 0
    requires forall i :: 0 <= i < |s| ==> IsDigit(s[i]) || (i == 0 && s[i] == '-')
  {
    if s[0] == '-' then -(ParseNat(s[1..]) as int) else ParseNat(s)
  }

  /** The decimal rendering loses nothing: reading the digits back gives `n`. */
  lemma {:induction false} NatToStringRoundTrip(n: nat)
    ensures ParseNat(NatToString(n)) == n
  {
    var s := NatToString(n);
    if n >= 10 {
      assert s[..|s| - 1] == NatToString(n / 10);
      NatToStringRoundTrip(n / 10);
    }
  }

  lemma IntToStringRoundTrip(n: int)
    ensures ParseInt(IntToString(n)) == n
  {
    if n < 0 {
      NegativeRoundTrip(-n);
    } else {
      NatToStringRoundTrip(n);
    }
  }

  lemma NegativeRoundTrip(m: nat)
    ensures var s := "-" + NatToString(m);
            |s| > 0 && (forall i :: 0 <= i < |s| ==> IsDigit(s[i]) || (i == 0 && s[i] == '-'))
            && ParseInt(s) == -(m as int)
  {
    var t := NatToString(m);
    var s := "-" + t;
    assert s[0] == '-';
    assert s[1..] == t;
    assert forall i :: 1 <= i < |s| ==> s[i] == t[i - 1];
    NatToStringRoundTrip(m);
  }

  /** Number of occurrences of `c` in `s`. */
  function Count(s: string, c: char): nat {
    multiset(s)[c]
  }
}

=== FILE: wrappers.dfy ===
/** Option and Result, the failure-compatible wrappers the rest of the model uses
    for Python's `None` and for raised exceptions. */
module Wrappers {

  datatype Option<+T> = None | Some(value: T) {

    predicate IsFailure() {
      None?
    }

    function PropagateFailure<U>(): Option<U>
      requires None?
    {
      None
    }

    function Extract(): T
      requires Some?
    {
      value
    }
  }

  datatype Result<+R, +E> = Success(value: R) | Failure(error: E) {

    predicate IsFailure() {
      Failure?
    }

    function PropagateFailure<U>(): Result<U, E>
      requires Failure?
    {
      Failure(error)
    }

    function Extract(): R
      requires Success?
    {
      value
    }
  }
}
